=== FILE: README.md ===
# go-urlvalues encoder, modelled in Dafny

This project models the encoder of `github.com/vcraescu/go-urlvalues`. The
encoder turns a Go value into query parameters (`url.Values`, a map from a
key to an ordered list of strings) and proves properties of that model.

The modelled parts:

- **Entry point.** `MarshalerOptions.Marshal` (`Encoder.Marshal`) classifies the top-level input:
  - `nil` gives an empty collection.
  - A value that is zero once pointers are followed gives no collection.
  - A string is parsed as a query string.
  - A map or struct is walked by the engine.
  - Anything else is an error.
  - The package-level `Marshal` is `Encoder.MarshalDefault`, which applies the zero options.
- **Dispatcher.** `marshalAny` (`Encoder.MarshalAny`) runs a value's own `Marshaler` first. Otherwise it dispatches on kind:
  - map (`MarshalMap`)
  - array or slice (`MarshalSlice`)
  - struct or time (`MarshalStruct`)
  - pointer (`MarshalPtr`)
  - anything else is a basic value (`MarshalBasic`)
- **Key-path rule.** A child key `k` under scope `s` is `k` when `s` is empty and `s[k]` otherwise (`UrlValues.ScopedKey`).
- **Array policies.**
  - By default, elements repeat under the same key.
  - With `ArrayBrackets`, they go under `s[]`.
  - With `ArrayDelimiter`, they are joined into one value.
- **Leaf renderers.**
  - Booleans follow `IntBool` (`EncodeBool`).
  - Times follow the unix, milli, nano and layout options, in that priority order (`TimeFormatFor`).
  - Everything else uses the zero-is-empty string rule (`Reflect.ValueString`).
- **Helpers** from `internal/`:
  - `Indirect`, `IsZero`, `ValueString`, `StringValueMap` and `SliceValues` (module `Reflect`).
  - `MergeURLValues` (module `UrlValues`).

A Go value is the datatype `Reflect.Value`:

- `Nil` is the invalid value, which is what a nil interface becomes.
- `Bool`, `Int` and `Str`.
- `Map` holds its entries in iteration order.
- `Array` covers arrays and slices.
- `Record` is a struct, known by an identity and by the answer of its own `IsZero` method.
- `Time`.
- `Ptr` is a pointer, possibly nil.
- `Iface` is a value of interface kind, as indexing a `[]any` or a `map[string]any` produces.
  - The map view re-reads each map value through `Interface()` (`Reflect.Concrete`), so a map entry reaches the encoder as the value it holds.
  - The elements of a `[]any` are not unwrapped: `marshalAny` hands them to `marshalBasicTypes`, which prints them. The model does the same, so a nested map inside a `[]any` is written as its printed form rather than walked.
- `Custom` is a value whose type implements `Marshaler`. Its underlying shape decides its kind and zero-ness.
  - A type whose `EncodeValues` has a pointer receiver is a `Marshaler` only through the pointer. Write such a pointer as `Custom(id, Ptr(..))`.
  - A pointer to a value-receiver `Marshaler` is a `Marshaler` too, because its method set includes the pointed-to type's methods. A pointer to a pointer-receiver `Marshaler` (`Ptr(Some(Custom(id, Ptr(..))))`, Go's `**T`) is not, because a pointer to a pointer type has no methods. `Encoder.MarshalerOf` draws this line.

The engine threads the collection through pure functions that return `Result`.

The code the encoder calls but does not define is a field of `Encoder.Env`. These are:

- each `Marshaler`'s `EncodeValues`;
- `query.Values` for struct fields;
- `url.ParseQuery`;
- `fmt.Sprint` of composite values;
- time formatting.

Every property is proved for every choice of those functions.

Two Go map orders are involved:

- The order of `MapRange` in `StringValueMap` decides which entry wins when two keys render the same.
- The order of the range over the view in `marshalMap` decides the visiting order.

The model derives both from the one entries sequence. Keys are visited in the order of their first occurrence, and the last occurrence supplies the value. Every combination Go can produce is reached by some order of the entries, so proving a property for every sequence covers every pair of orders.

Modules:

- `wrappers.dfy` (`Wrappers`): `Option` and `Result`.
- `url_values.dfy` (`UrlValues`): the collection, `Add`, the key-path rule and `MergeURLValues`.
- `reflect.dfy` (`Reflect`): values, kinds and the `internal/reflect.go` helpers.
- `marshal.dfy` (`Encoder`): options, the engine and the entry point.
- `marshal_properties.dfy` (`MarshalProperties`): properties relating several calls. These are the array policies, scope composition, and scope confinement.
- `marshal_examples.dfy` (`MarshalExamples`): the behaviour the repository's table tests describe, proved for the model.

## Model

| member | source | states |
|---|---|---|
| UrlValues.Add | internal/url.go:12 | `url.Values.Add`: the key is present afterwards, one value is appended at its end, and every other key keeps its values |
| UrlValues.UnscopeIsInverse | internal/url.go:7-9 | the key-path rule can be undone: `d` is the scoped form of `k` under a scope exactly when unscoping `d` gives `k` |
| UrlValues.ScopedKeyInjective | internal/url.go:7-9 | two different source keys never land on the same destination key under one scope |
| UrlValues.Merge | internal/url.go:5-15 | the merge result, key by key. Each source key `k` (itself at the top level, `scope[k]` otherwise) has its values appended after the destination's existing values there. The key set grows exactly by the scoped keys of non-empty source lists. All other destination keys are unchanged |
| UrlValues.MergeURLValues | internal/url.go:5-15 | the loop as written, visiting source keys in any order and adding values one by one, ends with exactly the `Merge` result |
| UrlValues.AddAll | internal/url.go:11-13 | adding the values of one source key one at a time appends them all, in source order, under that key |
| UrlValues.MergeTotal | internal/url.go:11-13 | the number of values added to the destination equals the number of values in the source |
| UrlValues.MergeAtTopLevel | internal/url.go:6-10 | at the top level the merge keeps the source keys as they are: each key's source values follow the destination's, and a source key is added only when it holds values |
| Reflect.Indirect | internal/reflect.go:12-22 | the loop follows a non-nil pointer to `Indirect` of its target, so the result is the value at the end of the pointer chain. That result is never a non-nil pointer. A value that is not a pointer, or a nil pointer, comes back unchanged |
| Reflect.IndirectIdempotent | internal/reflect.go:12-22 | applying `Indirect` twice is the same as applying it once |
| Reflect.IsZeroByKind | internal/reflect.go:24-48 | zero-ness by kind through the reflect accessors. Maps, slices and strings are zero iff their length is 0. A bool is zero iff false; an integer iff 0; a pointer or interface iff nil; the invalid value always. A struct is zero iff its own `IsZero` method (`time.Time`'s included) answers true, and never without one. Named types follow their underlying value |
| Reflect.ValueStringEmptyIffZero | internal/reflect.go:68-74 | every zero value, of any kind, renders as the empty string. For booleans, integers and strings the converse holds as well: only `0`, `false` and `""` render as empty |
| Reflect.Concrete | internal/reflect.go:56 | re-reading a map value through `Interface()`: an interface holding a value becomes that value, a nil interface becomes the invalid value, and any value that is not of interface kind is unchanged |
| Reflect.Put | internal/reflect.go:62 | assignment into the view keeps keys distinct, makes the key map to the new value, and leaves every other key's value alone |
| Reflect.StringValueMap | internal/reflect.go:51-66 | the view has distinct keys. Each key maps to the value of the last entry, in iteration order, whose key renders as it and whose value is not a nil interface (the reference `LastWithKey`). Keys with no such entry are absent |
| Reflect.StringValueMapFromEntries | internal/reflect.go:51-66 | every pair of the view comes from an entry of the map: the key is that entry's rendered key, the value its concrete value, and never the invalid value |
| Reflect.SliceValues | internal/reflect.go:76-84 | appending the element at each index in turn yields one element per index, each equal to the input's element there, so the result is the elements themselves in index order. `MarshalSlice` walks this result |
| Encoder.EncodeBool | marshal.go:209-219 | with `IntBool`, `true` renders as `1` and `false` as `0`; without it as `true` and `false`; both directions of each |
| Encoder.TimeFormatFor | marshal.go:221-243 | seconds iff `TimeUnix`; milliseconds iff `TimeUnixMilli` but not `TimeUnix`; nanoseconds iff only `TimeUnixNano` of the three. Otherwise a non-empty layout: `TimeLayout` itself when it is set, RFC 3339 when it is empty |
| Encoder.EncodeTime | marshal.go:221-243 | the instant is rendered as Unix seconds, milliseconds or nanoseconds, whichever of the three options comes first and is set. With none of them it is formatted with `TimeLayout`, or with RFC 3339 when that is empty |
| Encoder.MarshalAny | marshal.go:80-119 | a value with its own `Marshaler` is encoded only by `EncodeValues` under the current scope. Its result is the call's result, and its error is the call's error as an `EncodeValues` error. Any error is an engine error, wrapped in the contexts it passed through |
| Encoder.MarshalSlice | marshal.go:154-182 | with a delimiter, the output changes at most at the element scope, and there it gains nothing or exactly one value appended after the existing ones |
| Encoder.MarshalStruct | marshal.go:135-152 | a time value writes exactly one value under a non-empty scope and nothing at the top level. Any other record whose field encoder succeeds gives the destination merged with the fields under the scope (`Merge`). A failure only comes from the field encoder, as a struct error |
| Encoder.MarshalBasic | marshal.go:190-207 | at the top level nothing is written. Under a scope exactly one value, the leaf's rendering, is appended there, and no other key changes |
| Encoder.Marshal | marshal.go:50-78 | `nil` gives an empty collection, and a value that is zero after `Indirect` gives none. A non-zero string is answered by the query-string parser, and its error becomes a parse error. A non-zero map or struct is answered by the engine run from an empty collection at the top level: its collection on success, its error unchanged on failure. Any other non-zero kind is a kind error naming the kind, whatever it holds, since it is never walked. No collection is returned only for zero inputs. The precondition leaves out two inputs. One is a string-kind value reached through a `Marshaler`: Go panics converting its named type to `string`. The other is a map or struct whose walk never ends because a nil pointer sits below the top level |
| Encoder.MarshalDefault | marshal.go:44-47 | the package-level `Marshal` gives an empty collection for `nil` and none for a zero value. It answers every non-zero value that is not a map or struct exactly as `Marshal` does under any options. What the zero options mean for the engine is stated by `DefaultOptionsMeaning` |
| Encoder.MarshalMap | marshal.go:121-133 | the contract states only the error shape: an engine error wrapped in the contexts it passed through. The content is stated by the partners: `MapOfLeaves` for maps of leaves, `MapStaysInScope` for maps without `Marshaler`s, and `SingleEntryScope` for the key rule |
| Encoder.MarshalEntries | marshal.go:122-130 | the contract states only the error shape, and the first error stops the loop. The per-entry content is stated by `EntriesOfLeaves` and `EntriesStayInScope` |
| Encoder.MarshalElems | marshal.go:159-165 | the contract states only the error shape, and the first error stops the loop. The per-element content is stated by `LeavesInOrder` and `ElemsStayInScope` |
| Encoder.MarshalPtr | marshal.go:184-188 | the contract states only the error shape. `PointerEncodesTarget` states that the chain's end is encoded under the same scope, and `PointerToMapOfLeaves` states this for a chain ending in a map of leaves |
| MarshalExamples.DefaultOptionsMeaning | marshal.go:44-47 | the package-level `Marshal` uses the zero options: slice elements repeat the key, without brackets or joining; booleans are written `true` and `false`; times use RFC 3339 |
| MarshalProperties.LeavesInOrder | marshal.go:159-167 | encoding leaves in index order under one scope appends their renderings in the same order under that scope, and writes nothing at the top level |
| MarshalProperties.SliceOfLeaves | marshal.go:154-182 | the three array policies on leaves, under any scope `s`. The element scope is `s[]` with `ArrayBrackets` and `s` otherwise, so `[]` at the top level with brackets. Without a delimiter, each rendering is appended under the element scope. With a delimiter, the output gains exactly one value there, the renderings joined by the delimiter. An empty slice with a delimiter changes nothing, and neither does any slice when the element scope is the top level |
| MarshalProperties.SliceRepeated | marshal.go:159-167 | without a delimiter, the renderings of leaves are appended one by one, in order, under the element scope; nothing is written when that is the top level |
| MarshalProperties.SliceJoined | marshal.go:169-181 | with a delimiter, the renderings of leaves are joined into one value added under the element scope. An empty slice adds nothing, and neither does the top level as element scope, since the scratch collection then has no such key |
| MarshalProperties.LeafEmission | marshal.go:190-207 | a boolean, integer, string or time value writes nothing at the top level and exactly one value (its rendering, or `encodeTime`'s) under any other scope. Zero values, the zero time included, are still written |
| MarshalProperties.SingleEntryScope | marshal.go:121-133 | a map entry whose key, of any kind, renders as `k` by the string rule is encoded at `k` from the top level and at `s[k]` under scope `s`. Zero keys such as `""`, `0` or `false` render as the empty key and are included. Its result is the map's, apart from the map context on an error |
| MarshalProperties.NestedMapsCompose | marshal.go:121-133 | scope composition: `{a: {b: v}}` under scope `s` encodes `v` at `s[a][b]`, or at `a[b]` from the top level. An empty outer key at the top level sends `v` to plain `b`. An error gains both map contexts |
| MarshalProperties.PointerEncodesTarget | marshal.go:184-188 | a pointer is a `Marshaler` exactly when it points to a value-receiver `Marshaler`, and is then encoded exactly as that `Marshaler`. Any other non-nil pointer is encoded as the value at the end of its pointer chain under the same scope, an error gaining the pointer context; a pointer to a pointer-receiver `Marshaler` is followed through it |
| MarshalProperties.PointerToMapOfLeaves | marshal.go:184-188 | a non-`Marshaler` pointer chain that ends in a map of leaves writes, under the same scope, exactly what `MapOfLeaves` states for the map. Each child scope gets the last matching entry's rendering, and nothing outside the child scopes changes |
| MarshalProperties.MapOfLeaves | marshal.go:121-133 | a map of leaves and nil entries writes, at the child scope of each rendered key, exactly the rendering of the last entry whose key renders that way. Nothing is written for keys no entry renders as, nor for the top-level key `""`. No key outside the child scopes changes |
| MarshalProperties.EntriesOfLeaves | marshal.go:122-130 | the loop of `marshalMap` over a view of leaves is the reference: each pair in turn adds its rendering at its child scope |
| MarshalProperties.LeavesAtKeys | marshal.go:122-130 | on a view with distinct keys, the reference gives key by key the value that key holds and leaves every key outside the child scopes alone |
| MarshalProperties.AnyStaysInScope | marshal.go:80-119 | a value without `Marshaler`s only appends, never removes, and never touches a key outside its scope. "Inside the scope `s`" means `s` itself or a key that continues `s` with a bracket, as `s[...]` does |
| MarshalProperties.MapStaysInScope | marshal.go:121-133 | a map without `Marshaler`s, encoded under a scope, only appends and writes only at keys at or below that scope |
| MarshalProperties.SliceStaysInScope | marshal.go:154-182 | a slice without `Marshaler`s does the same under each array policy, the delimited one included |
| MarshalProperties.EntriesStayInScope | marshal.go:121-133 | the entries of a map, each at its own child scope, together stay within the map's scope and only append |
| MarshalProperties.ElemsStayInScope | marshal.go:159-167 | the elements of a slice, at the element scope, only append and stay within that scope |
| MarshalProperties.MergeExtends | internal/url.go:5-15 | merging struct fields under a scope keeps every existing value and writes only at the scope's bracketed child keys |
| MarshalExamples.NilInput | marshal_test.go:490-496 | `nil` gives an empty collection, not a missing one |
| MarshalExamples.ZeroInputs | marshal_test.go:497-508 | `""` and a nil pointer give no collection and no error |
| MarshalExamples.KindErrors | marshal_test.go:509-526 | `10` and `true` are errors naming their kind |
| MarshalExamples.SliceKindErrors | marshal.go:74-76 | `[]*int{nil}`, and a pointer to a slice of maps that hold a nil pointer, are valid inputs. Each is a kind error naming the slice kind, answered without walking the elements |
| MarshalExamples.TopLevelStruct | marshal_test.go:25-88 | a struct input gives the field encoder's collection, without keys holding no values, or its error in struct context. A struct whose own `IsZero` answers true gives no collection |
| MarshalExamples.TopLevelTime | marshal.go:136-141 | a non-zero time given as the input is a struct and gives an empty collection: at the top level there is no key to write it under |
| MarshalExamples.SingleEntryInput | marshal.go:121-133 | an input map with the one entry `key: v` is answered by encoding `v` at `key`; an error there comes back inside the map context |
| MarshalExamples.SliceUnderKey | marshal.go:154-182 | an input `{key: es}` of leaves gives, by default, one value per element under `key` (or `key[]`), in order; with a delimiter the single joined value, or an empty collection when `es` is empty |
| MarshalExamples.DefaultSlice | marshal_test.go:312-321 | `{"slice": ["1","2"]}` gives `slice=1&slice=2` |
| MarshalExamples.BracketSlice | marshal_test.go:337-349 | with `ArrayBrackets` it gives `slice[]=1&slice[]=2` |
| MarshalExamples.DelimitedSlice | marshal_test.go:323-335 | with the delimiter `\|` it gives the single value `1\|2` |
| MarshalExamples.EmptySliceEntry | marshal_test.go:293-301 | `{"slice": []}` gives an empty, present collection |
| MarshalExamples.NilEntry | marshal_test.go:302-310 | `{"slice": nil}` gives an empty, present collection: the nil entry is skipped |
| MarshalExamples.MarshalerInMap | marshal_test.go:574-606 | a `Marshaler` in a map, of any underlying value, writes under its key. Its error aborts the call as an `EncodeValues` error inside the map context. Both the value-receiver `CustomEncodingInt` and the pointer `&i` to a pointer-receiver `CustomEncodingIntPtr` are covered |
| MarshalExamples.ThreeLevels | marshal.go:121-133 | for any non-empty keys `a`, `b`, `c` and leaf `x`, `{a: {b: {c: x}}}` writes exactly one value, `x`'s rendering, at `a[b][c]` |
| MarshalExamples.NestedInput | marshal.go:50-78 | the same map given as the input yields a collection holding only that value |
| MarshalExamples.NestedMapExample | marshal_test.go:441-467 | `{"map1": {"map2": {"int": 100}}}` gives `map1[map2][int]=100` |
| MarshalExamples.TimeEntry | marshal_test.go:263-272 | a time, zero or not, is written once under its key as `encodeTime` renders it |
| MarshalExamples.TimePointerEntry | marshal_test.go:252-262 | a time behind a pointer is written the same way |
| MarshalExamples.DefaultTimeLayout | marshal_test.go:241-251 | with no time option the layout is RFC 3339 |
| MarshalExamples.CustomTimeLayout | marshal_test.go:226-239 | with a `TimeLayout` and no Unix option, a time under `time` is formatted with that layout |
| MarshalExamples.BoolEntry | marshal_test.go:156-182 | `true` is written as `true`, or as `1` with `IntBool` |
| MarshalExamples.PointerToPointerReceiver | marshal_test.go:553-561 | `{"int": &&i}` for a pointer-receiver `Marshaler` `i` of value 10 gives `int=10`: the pointer to the pointer is not a `Marshaler`, so the chain is followed and the integer printed |
| MarshalExamples.NamedStringsExcluded | marshal.go:64-65 | a non-empty value of a named string type with a `Marshaler`, given directly, behind a pointer, or through a pointer-receiver `Marshaler`, is not a valid input |
| MarshalExamples.StringInput | marshal_test.go:106-133 | a non-empty string, directly or behind a pointer, is answered by the query-string parser, and its error becomes a parse error |

## Left out

- Query-string parsing (`url.ParseQuery`, marshal.go:65): a parameter of `Env` that returns a collection or an error. The partial collection `url.ParseQuery` returns alongside an error is dropped.
- Struct field encoding (`query.Values`, marshal.go:144): a parameter of `Env` keyed by the record's identity. Tag-driven naming and `omitempty` are not modelled.
- `fmt.Sprint`:
  - It is defined for booleans, integers and strings, giving Go's decimal and literal forms.
  - For every other value it is a parameter.
  - Time formatting and the unix, milli and nano arithmetic are a parameter too. Only the selection among them is modelled.
- Encoder.EncodeTime: states which rendering is picked, and with which layout, but not the text produced, because the formatting itself is a parameter.
- Floating-point and unsigned values: numbers are `int`. The float and unsigned branches of `IsZero` (internal/reflect.go:32-35) behave like the integer one and are not modelled.
- Reflection mechanics: a map is a sequence of entries, and every property holds for every order of them.
- Nil pointers below the top level: `marshalPtr` (marshal.go:184-188) hands the same nil pointer back to `marshalAny`, which does not terminate. `Encoder.Encodable` excludes such values, and the model gives them no behaviour. `Encoder.Marshalable` demands `Encodable` only of a top-level map or struct, the kinds `Marshal` walks. A slice, or any other kind, holding a nil pointer remains a valid input and gets its kind error.
- A top-level value of string kind with a `Marshaler` on its pointer chain: its type is then a named one, and `Marshal` converts it to a plain `string` (marshal.go:65), which panics in Go. `Encoder.Marshalable` excludes it, also where the pointer chain passes through a pointer-receiver `Marshaler`.
- Reflect.Print: `Bool`, `Int` and `Str` stand only for types without a `String` or `Error` method. `fmt.Sprint` (internal/reflect.go:73) and `Sprintf("%v")` (marshal.go:211) would call such a method, and the model prints the decimal or literal form instead.
- Encoder.Marshal: a top-level `Str`, directly or behind plain pointers, stands only for the predeclared `string`. A named string type without a `Marshaler` would make marshal.go:65 panic, and the model answers it with the parser instead.
- A `Marshaler` that replaces the collection through its `*url.Values` argument is not distinguished from one that changes it: `EncodeValues` returns the collection as the caller then sees it.
- Encoder.MarshalSlice: the contract bounds the change a delimited slice makes but does not name the joined value for arbitrary elements. `MarshalProperties.SliceOfLeaves` names it for slices of leaves.
- Error messages: errors are a datatype recording which context wrapped them, not Go's formatted strings. Arrays and slices share one kind, so the kind error for a top-level array names `SliceKind`, where Go's message (marshal.go:75-76) would say "array".
- Concurrency and I/O: the encoder has none.

=== FILE: marshal.dfy ===
/** The recursive value-to-query-parameters encoder of `marshal.go`: the
    options, the dispatcher `marshalAny` with its per-kind rules, the leaf
    renderers, and the entry point `MarshalerOptions.Marshal`. */
module Encoder {
  import opened Wrappers
  import opened Reflect
  import opened UrlValues

  /** `MarshalerOptions`. */
  datatype Options = Options(
    arrayBrackets: bool,
    arrayDelimiter: string,
    intBool: bool,
    timeUnix: bool,
    timeUnixMilli: bool,
    timeUnixNano: bool,
    timeLayout: string)

  /** The zero `MarshalerOptions{}` used by the package-level `Marshal`. */
  const DefaultOptions := Options(false, "", false, false, false, false, "")

  /** Go's `time.RFC3339` layout. */
  const RFC3339 := "2006-01-02T15:04:05Z07:00"

  /** How a time value is written: as a count of seconds, milliseconds or
      nanoseconds since the Unix epoch, or formatted with a layout. */
  datatype TimeFormat = UnixSeconds | UnixMillis | UnixNanos | Layout(layout: string)

  /** The collaborators the encoder calls but does not define.
      - `encodeValues(id, key, values)`: the `EncodeValues` method of the
        `Marshaler` value `id`, given the collection it may change; it returns
        the collection as the caller then sees it, or its error.
      - `structValues(id)`: the go-querystring encoder applied to record `id`.
      - `parseQuery(s)`: `url.ParseQuery`.
      - `sprint(v)`: `fmt.Sprint` of a value whose printed form is not modelled.
      - `formatTime(instant, format)`: the printed Unix count, or `Format`. */
  datatype Env = Env(
    encodeValues: (nat, string, Values) -> Result<Values, string>,
    structValues: nat -> Result<Values, string>,
    parseQuery: string -> Result<Values, string>,
    sprint: Value -> string,
    formatTime: (int, TimeFormat) -> string)

  /** The context `marshalAny` adds when it wraps an error from one of its
      per-kind rules ("marshal map: ", "marshal slice: ", ...). */
  datatype Context = InMap | InSlice | InStruct | InPointer

  datatype Error =
    | KindMismatch(got: Kind)             // top-level value of the wrong kind
    | ParseFailed(cause: string)          // from url.ParseQuery
    | EncodeValuesFailed(cause: string)   // "EncodeValues: ..."
    | StructFailed(cause: string)         // from the record encoder
    | Within(context: Context, inner: Error)

  /** The errors the engine can produce: a chain of map, slice and pointer
      contexts that ends either in a failed `EncodeValues` or in a failed
      record encoder reported in struct context. */
  predicate EngineError(e: Error) {
    match e
    case EncodeValuesFailed(_) => true
    case Within(InStruct, inner) => inner.StructFailed?
    case Within(_, inner) => EngineError(inner)
    case _ => false
  }

  function Wrap(ctx: Context, r: Result<Values, Error>): Result<Values, Error> {
    match r
    case Success(v) => Success(v)
    case Failure(e) => Failure(Within(ctx, e))
  }

  // ---------------------------------------------------------------------
  // Scopes and leaf rendering.

  /** The scope under which the elements of an array or slice are encoded. */
  function ElemScope(opts: Options, scope: string): string {
    if opts.arrayBrackets then scope + "[]" else scope
  }

  /** `encodeBool`. */
  function EncodeBool(opts: Options, b: bool): (r: string)
    ensures opts.intBool ==> (r == "1" <==> b) && (r == "0" <==> !b)
    ensures !opts.intBool ==> (r == "true" <==> b) && (r == "false" <==> !b)
  {
    if !opts.intBool then (if b then "true" else "false")
    else if b then "1" else "0"
  }

  /** The time rendering `encodeTime` picks: the first of `TimeUnix`,
      `TimeUnixMilli`, `TimeUnixNano` that is set, otherwise the layout,
      which defaults to RFC 3339. */
  function TimeFormatFor(opts: Options): (f: TimeFormat)
    ensures f == UnixSeconds <==> opts.timeUnix
    ensures f == UnixMillis <==> !opts.timeUnix && opts.timeUnixMilli
    ensures f == UnixNanos <==> !opts.timeUnix && !opts.timeUnixMilli && opts.timeUnixNano
    ensures f.Layout? ==> f.layout != ""
    ensures f.Layout? ==> (f.layout == RFC3339 <==> opts.timeLayout == "" || opts.timeLayout == RFC3339)
    ensures f.Layout? && opts.timeLayout != "" ==> f.layout == opts.timeLayout
  {
    if opts.timeUnix then UnixSeconds
    else if opts.timeUnixMilli then UnixMillis
    else if opts.timeUnixNano then UnixNanos
    else Layout(if opts.timeLayout != "" then opts.timeLayout else RFC3339)
  }

  /** `encodeTime`: the instant as Unix seconds, milliseconds or
      nanoseconds, the first of the three options that is set deciding, and
      otherwise formatted with `TimeLayout`, or with RFC 3339 when that is
      empty. */
  function EncodeTime(opts: Options, env: Env, instant: int): (r: string)
    ensures opts.timeUnix ==> r == env.formatTime(instant, UnixSeconds)
    ensures !opts.timeUnix && opts.timeUnixMilli ==> r == env.formatTime(instant, UnixMillis)
    ensures !opts.timeUnix && !opts.timeUnixMilli && opts.timeUnixNano ==> r == env.formatTime(instant, UnixNanos)
    ensures !opts.timeUnix && !opts.timeUnixMilli && !opts.timeUnixNano ==>
              r == env.formatTime(instant, Layout(if opts.timeLayout == "" then RFC3339 else opts.timeLayout))
  {
    env.formatTime(instant, TimeFormatFor(opts))
  }

  /** The text `marshalBasicTypes` writes for a leaf: booleans follow
      `IntBool`, everything else the string rule of `ValueString`. */
  function RenderLeaf(opts: Options, env: Env, v: Value): string {
    if v.Bool? then EncodeBool(opts, v.b) else ValueString(env.sprint, v)
  }

  // ---------------------------------------------------------------------
  // What the engine can encode.

  /** The values `marshalAny` finishes on. An invalid value never reaches it
      (a nil interface in a map is skipped), and a nil pointer below the top
      level makes `marshalPtr` call `marshalAny` on the same pointer again
      without end; both are excluded. A `Marshaler` is always fine: it
      encodes itself. A value of interface kind is printed, not walked. */
  ghost predicate Encodable(v: Value)
    decreases Size(v), 1
  {
    match v
    case Nil => false
    case Custom(_, _) => true
    case Iface(_) => true
    case Ptr(_) => !IsNilPointer(v) && Encodable(Indirect(v))
    case Map(es) => forall i | 0 <= i < |es| :: EntryEncodable(es, i)
    case Array(es) => forall i | 0 <= i < |es| :: ElemEncodable(es, i)
    case _ => true
  }

  ghost predicate EntryEncodable(es: seq<(Value, Value)>, i: nat)
    requires i < |es|
    decreases EntriesSize(es) + 1, 0
  {
    EntryIsSmaller(es, i);
    Concrete(es[i].1) == Nil || Encodable(Concrete(es[i].1))
  }

  ghost predicate ElemEncodable(es: seq<Value>, i: nat)
    requires i < |es|
    decreases ElemsSize(es) + 1, 0
  {
    ElemIsSmaller(es, i);
    Encodable(es[i])
  }

  /** The identity of the `Marshaler` a value is, if it is one. A pointer
      to a `Marshaler` with a value receiver is one too, since its method
      set includes the methods of the value it points to. A `Marshaler` of
      pointer kind has a pointer receiver, and a pointer to it is a pointer
      to a pointer, which has no methods. A value of interface kind is one
      when the value it holds is. */
  function MarshalerOf(v: Value): Option<nat> {
    match v
    case Custom(id, _) => Some(id)
    case Ptr(Some(Custom(id, u))) => if KindOf(u) == PtrKind then None else Some(id)
    case Iface(Some(x)) => MarshalerOf(x)
    case _ => None
  }

  // ---------------------------------------------------------------------
  // The engine.

  /** `marshalAny`: a `Marshaler` encodes itself under the current scope and
      no other rule applies; otherwise the value's kind picks the rule. */
  function MarshalAny(opts: Options, env: Env, out: Values, v: Value, scope: string): (r: Result<Values, Error>)
    requires Encodable(v)
    ensures r.Failure? ==> EngineError(r.error)
    ensures MarshalerOf(v).Some? ==>
      var called := env.encodeValues(MarshalerOf(v).value, scope, out);
      (r.Success? <==> called.Success?)
      && (r.Success? ==> r.value == called.value)
      && (r.Failure? ==> r.error == EncodeValuesFailed(called.error))
    decreases Size(v), 2, 0
  {
    match MarshalerOf(v)
    case Some(id) =>
      (match env.encodeValues(id, scope, out)
       case Success(vals) => Success(vals)
       case Failure(e) => Failure(EncodeValuesFailed(e)))
    case None =>
      match v
      case Map(es) => Wrap(InMap, MarshalMap(opts, env, out, es, scope))
      case Array(es) => Wrap(InSlice, MarshalSlice(opts, env, out, es, scope))
      case Record(_, _) => Wrap(InStruct, MarshalStruct(opts, env, out, v, scope))
      case Time(_, _) => Wrap(InStruct, MarshalStruct(opts, env, out, v, scope))
      case Ptr(_) => Wrap(InPointer, MarshalPtr(opts, env, out, v, scope))
      case _ => Success(MarshalBasic(opts, env, out, v, scope))
  }

  /** `marshalMap`: each entry of the string-keyed view is encoded under the
      child scope of its key. */
  function MarshalMap(opts: Options, env: Env, out: Values, es: seq<(Value, Value)>, scope: string): (r: Result<Values, Error>)
    requires Encodable(Map(es))
    ensures r.Failure? ==> EngineError(r.error)
    decreases Size(Map(es)), 1, 0
  {
    ViewEncodable(env.sprint, es);
    MarshalEntries(opts, env, out, StringValueMap(env.sprint, es), scope, Size(Map(es)))
  }

  /** The values of the string-keyed view of an encodable map are encodable
      and smaller than the map. */
  lemma ViewEncodable(sprint: Value -> string, es: seq<(Value, Value)>)
    requires Encodable(Map(es))
    ensures forall i | 0 <= i < |StringValueMap(sprint, es)| ::
              Encodable(StringValueMap(sprint, es)[i].1) && Size(StringValueMap(sprint, es)[i].1) < Size(Map(es))
  {
    var kvs := StringValueMap(sprint, es);
    forall i | 0 <= i < |kvs|
      ensures Encodable(kvs[i].1) && Size(kvs[i].1) < Size(Map(es))
    {
      StringValueMapFromEntries(sprint, es, i);
      StringValueMapSmaller(sprint, es, i);
      var j :| 0 <= j < |es| && Concrete(es[j].1) == kvs[i].1 && kvs[i].1 != Nil;
      assert EntryEncodable(es, j);
    }
  }

  /** The loop of `marshalMap` over the view, in its order; the first error
      stops it. Its contract is only the error shape: what each step writes
      is stated by `EntriesOfLeaves` for views of leaves and by
      `EntriesStayInScope` for views without `Marshaler`s. */
  function MarshalEntries(opts: Options, env: Env, out: Values, kvs: StringMap, scope: string, ghost bound: nat): (r: Result<Values, Error>)
    requires forall i | 0 <= i < |kvs| :: Encodable(kvs[i].1) && Size(kvs[i].1) < bound
    ensures r.Failure? ==> EngineError(r.error)
    decreases bound, 0, |kvs|
  {
    if |kvs| == 0 then Success(out)
    else
      var (k, v) := kvs[0];
      var next :- MarshalAny(opts, env, out, v, ScopedKey(scope, k));
      MarshalEntries(opts, env, next, kvs[1..], scope, bound)
  }

  /** `marshalSlice`. Without a delimiter the elements are encoded in order
      under the element scope. With one, they are encoded into a fresh
      collection, and only what lands exactly at the element scope comes
      back, joined into a single value: the collection gains at most that
      one value, and no other key changes. */
  function MarshalSlice(opts: Options, env: Env, out: Values, es: seq<Value>, scope: string): (r: Result<Values, Error>)
    requires Encodable(Array(es))
    ensures r.Failure? ==> EngineError(r.error)
    ensures opts.arrayDelimiter != "" && r.Success? ==>
      var s := ElemScope(opts, scope);
      && (forall k :: k != s ==> Get(r.value, k) == Get(out, k))
      && (Get(r.value, s) == Get(out, s) || exists t :: Get(r.value, s) == Get(out, s) + [t])
    decreases Size(Array(es)), 1, 0
  {
    var s := ElemScope(opts, scope);
    var elems := SliceValues(es);
    ArrayEncodable(es);
    if opts.arrayDelimiter == "" then
      MarshalElems(opts, env, out, elems, s)
    else
      var tmp :- MarshalElems(opts, env, map[], elems, s);
      if s in tmp then Success(Add(out, s, Join(tmp[s], opts.arrayDelimiter))) else Success(out)
  }

  lemma ArrayEncodable(es: seq<Value>)
    requires Encodable(Array(es))
    ensures forall i | 0 <= i < |es| :: Encodable(es[i])
  {
    forall i | 0 <= i < |es| ensures Encodable(es[i]) {
      assert ElemEncodable(es, i);
    }
  }

  /** The loop of `marshalSlice` over the elements, in index order, all under
      the same scope; the first error stops it. Its contract is only the
      error shape: what each step writes is stated by `LeavesInOrder` for
      leaves and by `ElemsStayInScope` for elements without `Marshaler`s. */
  function MarshalElems(opts: Options, env: Env, out: Values, es: seq<Value>, scope: string): (r: Result<Values, Error>)
    requires forall i | 0 <= i < |es| :: Encodable(es[i])
    ensures r.Failure? ==> EngineError(r.error)
    decreases ElemsSize(es) + 1, 0, |es|
  {
    if |es| == 0 then Success(out)
    else
      ElemIsSmaller(es, 0);
      var next :- MarshalAny(opts, env, out, es[0], scope);
      MarshalElems(opts, env, next, es[1..], scope)
  }

  /** `marshalStruct`. A time value is written under the scope (nothing at
      the top level, where there is no key); any other record is encoded by
      the record encoder and merged under the scope. */
  function MarshalStruct(opts: Options, env: Env, out: Values, v: Value, scope: string): (r: Result<Values, Error>)
    requires v.Record? || v.Time?
    ensures r.Failure? ==>
              v.Record? && env.structValues(v.id).Failure? && r.error == StructFailed(env.structValues(v.id).error)
    ensures v.Time? ==> r == Success(if scope == "" then out else Add(out, scope, EncodeTime(opts, env, v.instant)))
    ensures v.Record? && env.structValues(v.id).Success? ==> r == Success(Merge(out, env.structValues(v.id).value, scope))
  {
    if v.Time? then
      Success(if scope != "" then Add(out, scope, EncodeTime(opts, env, v.instant)) else out)
    else
      match env.structValues(v.id)
      case Failure(e) => Failure(StructFailed(e))
      case Success(fields) => Success(Merge(out, fields, scope))
  }

  /** `marshalPtr`: the pointer is followed to the end and the value found
      is encoded under the same scope. */
  function MarshalPtr(opts: Options, env: Env, out: Values, v: Value, scope: string): (r: Result<Values, Error>)
    requires v.Ptr? && Encodable(v)
    ensures r.Failure? ==> EngineError(r.error)
    decreases Size(v), 1, 0
  {
    MarshalAny(opts, env, out, Indirect(v), scope)
  }

  /** `marshalBasicTypes`: nothing at the top level; otherwise exactly one
      value, the leaf's rendering, is added under the scope. */
  function MarshalBasic(opts: Options, env: Env, out: Values, v: Value, scope: string): (r: Values)
    ensures scope == "" ==> r == out
    ensures scope != "" ==> Get(r, scope) == Get(out, scope) + [RenderLeaf(opts, env, v)]
    ensures forall k :: k != scope ==> Get(r, k) == Get(out, k)
  {
    if scope == "" then out else Add(out, scope, RenderLeaf(opts, env, v))
  }

  // ---------------------------------------------------------------------
  // The entry point.

  /** Whether a `Marshaler` lies on the pointer chain from `v`: then the
      value `Indirect` reaches has a named type, even where the model has
      followed a pointer-receiver `Marshaler` to the plain value below it. */
  predicate CustomOnChain(v: Value) {
    match v
    case Custom(_, _) => true
    case Ptr(Some(x)) => CustomOnChain(x)
    case _ => false
  }

  /** A named type `Indirect` stops at lies on the pointer chain. */
  lemma {:induction false} NamedEndOnChain(v: Value)
    ensures Indirect(v).Custom? ==> CustomOnChain(v)
    decreases Size(v)
  {
    if v.Ptr? && v.target.Some? {
      NamedEndOnChain(v.target.value);
    }
  }

  /** What `Marshal` demands of its argument. An `any` never holds a value of
      interface kind. Once pointers are followed, a zero value is answered at
      once. A map or struct is walked by the engine and must be encodable,
      which leaves out the walks that never end. A string must not have a
      `Marshaler` on its pointer chain: its type is then a named one, which
      the string branch would fail to convert to a plain string. Any other
      kind is answered with a kind error and is never walked. */
  ghost predicate Marshalable(v: Value) {
    && !v.Iface?
    && var val := Indirect(v);
       !IsZero(val) ==>
         && (KindOf(val) in {MapKind, StructKind} ==> Encodable(val))
         && !(KindOf(val) == StringKind && CustomOnChain(v))
  }

  /** `MarshalerOptions.Marshal`. `Success(None)` is the nil collection,
      `Success(Some(map[]))` an empty one. */
  function Marshal(opts: Options, env: Env, v: Value): (r: Result<Option<Values>, Error>)
    requires Marshalable(v)
    ensures v.Nil? ==> r == Success(Some(map[]))
    ensures !v.Nil? && IsZero(Indirect(v)) ==> r == Success(None)
    ensures !IsZero(Indirect(v)) && KindOf(Indirect(v)) !in {StringKind, MapKind, StructKind}
            ==> r == Failure(KindMismatch(KindOf(Indirect(v))))
    ensures r.Success? && r.value.None? ==> IsZero(Indirect(v))
    ensures r.Failure? ==> r.error.KindMismatch? || r.error.ParseFailed? || EngineError(r.error)
    ensures !IsZero(Indirect(v)) && KindOf(Indirect(v)) == StringKind ==>
              Indirect(v).Str? &&
              var p := env.parseQuery(Indirect(v).s);
              && (p.Success? ==> r == Success(Some(p.value)))
              && (p.Failure? ==> r == Failure(ParseFailed(p.error)))
    ensures !IsZero(Indirect(v)) && KindOf(Indirect(v)) in {MapKind, StructKind} ==>
              var e := MarshalAny(opts, env, map[], Indirect(v), "");
              && (e.Success? ==> r == Success(Some(e.value)))
              && (e.Failure? ==> r == Failure(e.error))
  {
    if v.Nil? then Success(Some(map[]))
    else
      var val := Indirect(v);
      if IsZero(val) then Success(None)
      else
        match KindOf(val)
        case StringKind =>
          NamedEndOnChain(v);
          assert val.Str?;
          (match env.parseQuery(val.s)
           case Success(vals) => Success(Some(vals))
           case Failure(e) => Failure(ParseFailed(e)))
        case MapKind =>
          var vals :- MarshalAny(opts, env, map[], val, "");
          Success(Some(vals))
        case StructKind =>
          var vals :- MarshalAny(opts, env, map[], val, "");
          Success(Some(vals))
        case _ => Failure(KindMismatch(KindOf(val)))
  }

  /** The package-level `Marshal`: the default options. It answers the
      top-level cases as `Marshal` does under any options; the options only
      shape what the engine writes for a map or struct. */
  function MarshalDefault(env: Env, v: Value): (r: Result<Option<Values>, Error>)
    requires Marshalable(v)
    ensures v.Nil? ==> r == Success(Some(map[]))
    ensures !v.Nil? && IsZero(Indirect(v)) ==> r == Success(None)
    ensures !IsZero(Indirect(v)) && KindOf(Indirect(v)) !in {MapKind, StructKind} ==>
              forall opts :: r == Marshal(opts, env, v)
  {
    Marshal(DefaultOptions, env, v)
  }
}

=== FILE: marshal_examples.dfy ===
/** Worked cases of `Marshal` on small inputs, matching the behaviour the
    repository's tests describe: values without a collection, the array
    policies, and a `Marshaler` inside a map. */
module MarshalExamples {
  import opened Wrappers
  import opened Reflect
  import opened UrlValues
  import opened Encoder
  import opened MarshalProperties

  /** `nil` gives an empty collection, not a missing one. */
  lemma NilInput(opts: Options, env: Env)
    ensures Marshal(opts, env, Nil) == Success(Some(map[]))
  {
  }

  /** The empty string and a nil pointer give no collection. */
  lemma ZeroInputs(opts: Options, env: Env)
    ensures Marshal(opts, env, Str("")) == Success(None)
    ensures Marshal(opts, env, Ptr(None)) == Success(None)
  {
  }

  /** `10` and `true` are errors naming their kind. */
  lemma KindErrors(opts: Options, env: Env)
    ensures Marshal(opts, env, Int(10)) == Failure(KindMismatch(IntKind))
    ensures Marshal(opts, env, Bool(true)) == Failure(KindMismatch(BoolKind))
  {
  }

  /** A non-empty slice is a kind error even when the engine could not walk
      it: `[]*int{nil}`, or a pointer to a slice of maps holding a nil
      pointer, is answered before any element is looked at. */
  lemma SliceKindErrors(opts: Options, env: Env)
    ensures Marshalable(Array([Ptr(None)]))
    ensures Marshal(opts, env, Array([Ptr(None)])) == Failure(KindMismatch(SliceKind))
    ensures Marshalable(Ptr(Some(Array([Map([(Str("a"), Ptr(None))])]))))
    ensures Marshal(opts, env, Ptr(Some(Array([Map([(Str("a"), Ptr(None))])]))))
         == Failure(KindMismatch(SliceKind))
  {
    assert Indirect(Ptr(Some(Array([Map([(Str("a"), Ptr(None))])])))) == Array([Map([(Str("a"), Ptr(None))])]);
  }

  /** A struct input is answered by the record encoder: its collection,
      without the keys that hold no values, or its error in struct context.
      A struct whose own `IsZero` says so gives no collection. */
  lemma TopLevelStruct(opts: Options, env: Env, id: nat, selfZero: Option<bool>)
    ensures Marshalable(Record(id, selfZero))
    ensures var fields := env.structValues(id);
            var r := Marshal(opts, env, Record(id, selfZero));
            && (selfZero == Some(true) ==> r == Success(None))
            && (selfZero != Some(true) && fields.Failure? ==> r == Failure(Within(InStruct, StructFailed(fields.error))))
            && (selfZero != Some(true) && fields.Success? ==>
                  && r.Success? && r.value.Some?
                  && r.value.value.Keys == (set k | k in fields.value && fields.value[k] != [])
                  && forall k :: Get(r.value.value, k) == Get(fields.value, k))
  {
    if selfZero != Some(true) {
      StructInput(opts, env, id, selfZero);
      if env.structValues(id).Success? {
        MergeAtTopLevel(map[], env.structValues(id).value);
      }
    }
  }

  lemma StructInput(opts: Options, env: Env, id: nat, selfZero: Option<bool>)
    requires selfZero != Some(true)
    ensures Marshalable(Record(id, selfZero))
    ensures var fields := env.structValues(id);
            Marshal(opts, env, Record(id, selfZero))
            == if fields.Failure? then Failure(Within(InStruct, StructFailed(fields.error)))
               else Success(Some(Merge(map[], fields.value, "")))
  {
  }

  /** A non-zero time given as the input writes nothing: at the top level
      there is no key to write it under, so the collection is empty. */
  lemma TopLevelTime(opts: Options, env: Env, instant: int)
    ensures Marshal(opts, env, Time(instant, false)) == Success(Some(map[]))
  {
  }

  /** A map with the single entry `key: v` is answered by encoding `v` at
      `key`; an error gains the map context. */
  lemma SingleEntryInput(opts: Options, env: Env, key: string, v: Value)
    requires Encodable(v) && !v.Iface?
    ensures Marshalable(Map([(Str(key), v)]))
    ensures var r := MarshalAny(opts, env, map[], v, key);
            && (r.Success? ==> Marshal(opts, env, Map([(Str(key), v)])) == Success(Some(r.value)))
            && (r.Failure? ==> Marshal(opts, env, Map([(Str(key), v)])) == Failure(Within(InMap, r.error)))
  {
    assert ValueString(env.sprint, Str(key)) == key;
    SingleEntryScope(opts, env, map[], Str(key), v, "");
  }

  /** `{key: es}` for leaves `es`, under each array policy. */
  lemma SliceUnderKey(opts: Options, env: Env, key: string, es: seq<Value>)
    requires key != "" && AllPrimitive(es)
    ensures Marshalable(Map([(Str(key), Array(es))]))
    ensures var s := ElemScope(opts, key);
            Marshal(opts, env, Map([(Str(key), Array(es))])) == Success(Some(
              if opts.arrayDelimiter == "" then Append(map[], s, Rendered(opts, env, es))
              else if |es| == 0 then map[]
              else Add(map[], s, Join(Rendered(opts, env, es), opts.arrayDelimiter))))
  {
    SliceOfLeaves(opts, env, map[], es, key);
    SingleEntryInput(opts, env, key, Array(es));
  }

  lemma RenderedOneTwo(opts: Options, env: Env)
    ensures Rendered(opts, env, [Str("1"), Str("2")]) == ["1", "2"]
  {
  }

  /** `{"slice": ["1", "2"]}` by default: one value per element. */
  lemma DefaultSlice(env: Env)
    ensures Marshal(DefaultOptions, env, Map([(Str("slice"), Array([Str("1"), Str("2")]))]))
         == Success(Some(map["slice" := ["1", "2"]]))
  {
    SliceUnderKey(DefaultOptions, env, "slice", [Str("1"), Str("2")]);
    RenderedOneTwo(DefaultOptions, env);
    ValuesExt(Append(map[], "slice", ["1", "2"]), map["slice" := ["1", "2"]]);
  }

  /** `{"slice": ["1", "2"]}` with `ArrayBrackets`: the key gains `[]`. */
  lemma BracketSlice(env: Env)
    ensures Marshal(DefaultOptions.(arrayBrackets := true), env, Map([(Str("slice"), Array([Str("1"), Str("2")]))]))
         == Success(Some(map["slice[]" := ["1", "2"]]))
  {
    var opts := DefaultOptions.(arrayBrackets := true);
    SliceUnderKey(opts, env, "slice", [Str("1"), Str("2")]);
    RenderedOneTwo(opts, env);
    assert ElemScope(opts, "slice") == "slice[]";
    ValuesExt(Append(map[], "slice[]", ["1", "2"]), map["slice[]" := ["1", "2"]]);
  }

  /** `{"slice": ["1", "2"]}` with the delimiter `|`: one joined value. */
  lemma DelimitedSlice(env: Env)
    ensures Marshal(DefaultOptions.(arrayDelimiter := "|"), env, Map([(Str("slice"), Array([Str("1"), Str("2")]))]))
         == Success(Some(map["slice" := ["1|2"]]))
  {
    var opts := DefaultOptions.(arrayDelimiter := "|");
    SliceUnderKey(opts, env, "slice", [Str("1"), Str("2")]);
    RenderedOneTwo(opts, env);
    assert Join(["1", "2"], "|") == "1|2";
    ValuesExt(Add(map[], "slice", "1|2"), map["slice" := ["1|2"]]);
  }

  /** An empty slice adds nothing, but the collection is still there. */
  lemma EmptySliceEntry(opts: Options, env: Env)
    ensures Marshal(opts, env, Map([(Str("slice"), Array([]))])) == Success(Some(map[]))
  {
    SliceUnderKey(opts, env, "slice", []);
  }

  /** A nil entry of a `map[string]any` is skipped, and the collection is
      still there. */
  lemma NilEntry(opts: Options, env: Env)
    ensures Marshal(opts, env, Map([(Str("slice"), Iface(None))])) == Success(Some(map[]))
  {
    var es: seq<(Value, Value)> := [(Str("slice"), Iface(None))];
    assert es[..|es| - 1] == [];
    assert StringValueMap(env.sprint, es) == [];
    assert Encodable(Map(es)) by {
      assert EntryEncodable(es, 0);
    }
  }

  /** A `Marshaler` inside a map writes under the entry's key, and its error
      aborts the whole call wrapped in the map context. Its underlying value
      is arbitrary, so both a value-receiver `Marshaler` and the pointer
      `&i` to a pointer-receiver one are covered. */
  lemma MarshalerInMap(opts: Options, env: Env, id: nat, u: Value)
    ensures Marshalable(Map([(Str("int"), Custom(id, u))]))
    ensures var r := Marshal(opts, env, Map([(Str("int"), Custom(id, u))]));
            var called := env.encodeValues(id, "int", map[]);
            && (called.Failure? ==> r == Failure(Within(InMap, EncodeValuesFailed(called.error))))
            && (called.Success? ==> r == Success(Some(called.value)))
  {
    SingleEntryInput(opts, env, "int", Custom(id, u));
  }

  /** A pointer to a pointer-receiver `Marshaler` is not a `Marshaler`: the
      pointer chain is followed to the plain integer below, which is
      printed. `Custom(id, Ptr(..))` is the pointer `&i` to
      `i := CustomEncodingIntPtr(10)`, and the entry holds `&&i`. */
  lemma PointerToPointerReceiver(opts: Options, env: Env, id: nat)
    ensures Marshalable(Map([(Str("int"), Ptr(Some(Custom(id, Ptr(Some(Int(10)))))))]))
    ensures Marshal(opts, env, Map([(Str("int"), Ptr(Some(Custom(id, Ptr(Some(Int(10)))))))]))
         == Success(Some(map["int" := ["10"]]))
  {
    var x := Custom(id, Ptr(Some(Int(10))));
    TwoPointersToTen(id);
    SingleEntryInput(opts, env, "int", Ptr(Some(x)));
    PointerEncodesTarget(opts, env, map[], x, "int");
    TenUnderInt(opts, env);
  }

  lemma TwoPointersToTen(id: nat)
    ensures Indirect(Ptr(Some(Custom(id, Ptr(Some(Int(10))))))) == Int(10)
    ensures Encodable(Ptr(Some(Custom(id, Ptr(Some(Int(10)))))))
  {
    var x := Custom(id, Ptr(Some(Int(10))));
    assert Elem(Ptr(Some(Int(10)))) == Int(10);
    assert KindOf(x) == PtrKind;
    assert !IsNilPointer(x);
    assert Elem(x) == Elem(Ptr(Some(Int(10))));
    assert Indirect(x) == Indirect(Int(10)) == Int(10);
  }

  lemma TenUnderInt(opts: Options, env: Env)
    ensures MarshalAny(opts, env, map[], Int(10), "int") == Success(map["int" := ["10"]])
  {
    assert DecimalText(10) == "10";
    assert RenderLeaf(opts, env, Int(10)) == "10";
    assert MarshalAny(opts, env, map[], Int(10), "int") == Success(Add(map[], "int", "10"));
    ValuesExt(Add(map[], "int", "10"), map["int" := ["10"]]);
  }

  /** A value of a named string type with a `Marshaler`, directly, behind a
      pointer, or reached through a pointer-receiver `Marshaler`, is not a
      valid input: the string branch would fail to convert it to a plain
      `string`. */
  lemma NamedStringsExcluded(id: nat, s: string)
    requires s != ""
    ensures !Marshalable(Custom(id, Str(s)))
    ensures !Marshalable(Ptr(Some(Custom(id, Str(s)))))
    ensures !Marshalable(Custom(id, Ptr(Some(Str(s)))))
  {
    var named := Custom(id, Str(s));
    assert Indirect(named) == named && !IsZero(named) && KindOf(named) == StringKind;
    assert CustomOnChain(named);
    assert Indirect(Ptr(Some(named))) == named && CustomOnChain(Ptr(Some(named)));
    var throughPointer := Custom(id, Ptr(Some(Str(s))));
    assert Elem(Ptr(Some(Str(s)))) == Str(s);
    assert KindOf(throughPointer) == PtrKind && !IsNilPointer(throughPointer);
    assert Elem(throughPointer) == Elem(Ptr(Some(Str(s))));
    assert Indirect(throughPointer) == Str(s) && !IsZero(Str(s)) && CustomOnChain(throughPointer);
  }

  /** `{a: {b: {c: x}}}` for a leaf `x` writes the one value `x` renders
      as, at `a[b][c]`. */
  lemma ThreeLevels(opts: Options, env: Env, a: string, b: string, c: string, x: Value)
    requires a != "" && b != "" && c != "" && IsPrimitive(x)
    ensures Encodable(Map([(Str(a), Map([(Str(b), Map([(Str(c), x)]))]))]))
    ensures MarshalAny(opts, env, map[], Map([(Str(a), Map([(Str(b), Map([(Str(c), x)]))]))]), "")
         == Success(Add(map[], ScopedKey(ScopedKey(a, b), c), RenderLeaf(opts, env, x)))
  {
    var middle := ScopedKey(a, b);
    LeafEmission(opts, env, map[], x, ScopedKey(middle, c));
    SingleEntryScope(opts, env, map[], Str(c), x, middle);
    NestedMapsCompose(opts, env, map[], a, b, Map([(Str(c), x)]), "");
  }

  /** `{a: {b: {c: x}}}` as an input: the collection holds the one value
      `x` renders as, at `a[b][c]`. */
  lemma NestedInput(opts: Options, env: Env, a: string, b: string, c: string, x: Value)
    requires a != "" && b != "" && c != "" && IsPrimitive(x)
    ensures Marshalable(Map([(Str(a), Map([(Str(b), Map([(Str(c), x)]))]))]))
    ensures Marshal(opts, env, Map([(Str(a), Map([(Str(b), Map([(Str(c), x)]))]))]))
         == Success(Some(Add(map[], ScopedKey(ScopedKey(a, b), c), RenderLeaf(opts, env, x))))
  {
    ThreeLevels(opts, env, a, b, c, x);
  }

  lemma NestedKeyPath()
    ensures ScopedKey(ScopedKey("map1", "map2"), "int") == "map1[map2][int]"
  {
  }

  lemma HundredText()
    ensures DecimalText(100) == "100"
  {
  }

  lemma SingletonIsAdd(key: string, x: string)
    ensures Add(map[], key, x) == map[key := [x]]
  {
    ValuesExt(Add(map[], key, x), map[key := [x]]);
  }

  /** `{"map1": {"map2": {"int": 100}}}` is written at `map1[map2][int]`. */
  lemma NestedMapExample(env: Env)
    ensures Marshalable(Map([(Str("map1"), Map([(Str("map2"), Map([(Str("int"), Int(100))]))]))]))
    ensures Marshal(DefaultOptions, env, Map([(Str("map1"), Map([(Str("map2"), Map([(Str("int"), Int(100))]))]))]))
         == Success(Some(map["map1[map2][int]" := ["100"]]))
  {
    NestedInput(DefaultOptions, env, "map1", "map2", "int", Int(100));
    NestedKeyPath();
    HundredText();
    SingletonIsAdd("map1[map2][int]", "100");
  }

  /** A time under the key `time` is written once, as `encodeTime` renders
      it, whether it is zero or not. */
  lemma TimeEntry(opts: Options, env: Env, instant: int, zero: bool)
    ensures Marshalable(Map([(Str("time"), Time(instant, zero))]))
    ensures Marshal(opts, env, Map([(Str("time"), Time(instant, zero))]))
         == Success(Some(map["time" := [EncodeTime(opts, env, instant)]]))
  {
    var t := Time(instant, zero);
    LeafEmission(opts, env, map[], t, "time");
    SingleEntryInput(opts, env, "time", t);
    ValuesExt(Add(map[], "time", EncodeTime(opts, env, instant)), map["time" := [EncodeTime(opts, env, instant)]]);
  }

  /** Behind a pointer, a time is written just the same. */
  lemma TimePointerEntry(opts: Options, env: Env, instant: int, zero: bool)
    ensures Marshalable(Map([(Str("time"), Ptr(Some(Time(instant, zero))))]))
    ensures Marshal(opts, env, Map([(Str("time"), Ptr(Some(Time(instant, zero))))]))
         == Success(Some(map["time" := [EncodeTime(opts, env, instant)]]))
  {
    var t := Time(instant, zero);
    LeafEmission(opts, env, map[], t, "time");
    assert Indirect(Ptr(Some(t))) == t;
    assert Encodable(Ptr(Some(t)));
    SingleEntryInput(opts, env, "time", Ptr(Some(t)));
    ValuesExt(Add(map[], "time", EncodeTime(opts, env, instant)), map["time" := [EncodeTime(opts, env, instant)]]);
  }

  /** With no time option set, the layout is RFC 3339. */
  lemma DefaultTimeLayout(env: Env, instant: int)
    ensures EncodeTime(DefaultOptions, env, instant) == env.formatTime(instant, Layout(RFC3339))
  {
  }

  /** The package-level `Marshal` uses the zero options: slice elements
      repeat the key, without brackets and without joining; booleans are
      written as `true` and `false`; times are formatted with RFC 3339. */
  lemma DefaultOptionsMeaning(env: Env, scope: string, b: bool, instant: int)
    ensures ElemScope(DefaultOptions, scope) == scope && DefaultOptions.arrayDelimiter == ""
    ensures EncodeBool(DefaultOptions, b) == (if b then "true" else "false")
    ensures EncodeTime(DefaultOptions, env, instant) == env.formatTime(instant, Layout(RFC3339))
  {
  }

  /** With a `TimeLayout` and no Unix option, a time under `time` is
      formatted with that layout. */
  lemma CustomTimeLayout(env: Env, layout: string, instant: int, zero: bool)
    requires layout != ""
    ensures Marshal(DefaultOptions.(timeLayout := layout), env, Map([(Str("time"), Time(instant, zero))]))
         == Success(Some(map["time" := [env.formatTime(instant, Layout(layout))]]))
  {
    TimeEntry(DefaultOptions.(timeLayout := layout), env, instant, zero);
  }

  /** `{"on": true}` is written as `true`, or as `1` with `IntBool`. */
  lemma BoolEntry(env: Env, intBool: bool)
    ensures Marshal(DefaultOptions.(intBool := intBool), env, Map([(Str("on"), Bool(true))]))
         == Success(Some(map["on" := [if intBool then "1" else "true"]]))
  {
    var opts := DefaultOptions.(intBool := intBool);
    LeafEmission(opts, env, map[], Bool(true), "on");
    SingleEntryInput(opts, env, "on", Bool(true));
    ValuesExt(Add(map[], "on", EncodeBool(opts, true)), map["on" := [if intBool then "1" else "true"]]);
  }

  /** A non-empty string, directly or behind a pointer, is parsed as a
      query string: its parse is the answer, and a parse error is the
      error. */
  lemma StringInput(opts: Options, env: Env, s: string, behindPointer: bool)
    requires s != ""
    ensures Marshalable(if behindPointer then Ptr(Some(Str(s))) else Str(s))
    ensures var r := Marshal(opts, env, if behindPointer then Ptr(Some(Str(s))) else Str(s));
            && (env.parseQuery(s).Success? ==> r == Success(Some(env.parseQuery(s).value)))
            && (env.parseQuery(s).Failure? ==> r == Failure(ParseFailed(env.parseQuery(s).error)))
  {
    assert Indirect(Ptr(Some(Str(s)))) == Str(s);
  }
}

=== FILE: marshal_properties.dfy ===
/** Properties of the encoder that relate several calls or hold for whole
    families of inputs: the array policies, scope composition for nested
    maps, and the fact that an encoder without `Marshaler` values writes only
    below its own scope and never removes a value. */
module MarshalProperties {
  import opened Wrappers
  import opened Reflect
  import opened UrlValues
  import opened Encoder

  // ---------------------------------------------------------------------
  // Arrays and slices of leaves.

  /** The renderings of a sequence of leaves, in order. */
  function Rendered(opts: Options, env: Env, es: seq<Value>): (r: seq<string>)
    ensures |r| == |es|
    ensures forall i | 0 <= i < |es| :: r[i] == RenderLeaf(opts, env, es[i])
  {
    if |es| == 0 then [] else [RenderLeaf(opts, env, es[0])] + Rendered(opts, env, es[1..])
  }

  predicate AllPrimitive(es: seq<Value>) {
    forall i | 0 <= i < |es| :: IsPrimitive(es[i])
  }

  lemma AppendAfterAdd(m: Values, k: string, x: string, xs: seq<string>)
    ensures Append(Add(m, k, x), k, xs) == Append(m, k, [x] + xs)
  {
    ValuesExt(Append(Add(m, k, x), k, xs), Append(m, k, [x] + xs));
  }

  /** Encoding leaves one after another under one scope appends their
      renderings, in order, under that scope (and adds nothing at the top
      level). */
  lemma {:induction false} LeavesInOrder(opts: Options, env: Env, out: Values, es: seq<Value>, scope: string)
    requires AllPrimitive(es)
    ensures MarshalElems(opts, env, out, es, scope)
         == Success(if scope == "" then out else Append(out, scope, Rendered(opts, env, es)))
    decreases |es|
  {
    if |es| > 0 {
      var next := MarshalBasic(opts, env, out, es[0], scope);
      assert MarshalAny(opts, env, out, es[0], scope) == Success(next);
      assert AllPrimitive(es[1..]) by {
        forall i | 0 <= i < |es[1..]| ensures IsPrimitive(es[1..][i]) {
          assert es[1..][i] == es[i + 1];
        }
      }
      LeavesInOrder(opts, env, next, es[1..], scope);
      if scope != "" {
        assert next == Add(out, scope, RenderLeaf(opts, env, es[0]));
        AppendAfterAdd(out, scope, RenderLeaf(opts, env, es[0]), Rendered(opts, env, es[1..]));
      }
    }
  }

  lemma LeavesEncodable(es: seq<Value>)
    requires AllPrimitive(es)
    ensures Encodable(Array(es))
  {
    forall i | 0 <= i < |es| ensures ElemEncodable(es, i) {
      ElemIsSmaller(es, i);
    }
  }

  /** Without a delimiter, leaves are appended one by one under the element
      scope, and nothing is written when that scope is the top level. */
  lemma SliceRepeated(opts: Options, env: Env, out: Values, es: seq<Value>, scope: string)
    requires AllPrimitive(es) && opts.arrayDelimiter == ""
    ensures Encodable(Array(es))
    ensures var s := ElemScope(opts, scope);
            MarshalSlice(opts, env, out, es, scope) == Success(if s == "" then out else Append(out, s, Rendered(opts, env, es)))
  {
    LeavesEncodable(es);
    assert SliceValues(es) == es;
    LeavesInOrder(opts, env, out, es, ElemScope(opts, scope));
  }

  /** With a delimiter, leaves are joined into one value under the element
      scope; an empty sequence adds nothing, and neither does the top level
      as element scope, since the scratch collection then has no such key. */
  lemma SliceJoined(opts: Options, env: Env, out: Values, es: seq<Value>, scope: string)
    requires AllPrimitive(es) && opts.arrayDelimiter != ""
    ensures Encodable(Array(es))
    ensures var s := ElemScope(opts, scope);
            MarshalSlice(opts, env, out, es, scope)
              == Success(if |es| == 0 || s == "" then out else Add(out, s, Join(Rendered(opts, env, es), opts.arrayDelimiter)))
  {
    LeavesEncodable(es);
    assert SliceValues(es) == es;
    var s := ElemScope(opts, scope);
    LeavesInOrder(opts, env, map[], es, s);
    if s == "" {
      assert MarshalElems(opts, env, map[], es, s) == Success(map[]);
    } else {
      var tmp := Append(map[], s, Rendered(opts, env, es));
      if |es| > 0 {
        assert Get(tmp, s) == Rendered(opts, env, es);
        assert s in tmp && tmp[s] == Rendered(opts, env, es);
      } else {
        assert s !in tmp;
      }
    }
  }

  /** The three array policies on a sequence of leaves under any scope. The
      element scope is `scope[]` with `ArrayBrackets` and `scope` otherwise;
      it is the top level only for `scope == ""` without brackets, and then
      nothing is written. Otherwise: without a delimiter, the renderings are
      appended one by one under the element scope; with a delimiter, they
      are joined into one value under it, and an empty sequence adds
      nothing. */
  lemma SliceOfLeaves(opts: Options, env: Env, out: Values, es: seq<Value>, scope: string)
    requires AllPrimitive(es)
    ensures Encodable(Array(es))
    ensures var s := if opts.arrayBrackets then scope + "[]" else scope;
            var r := MarshalAny(opts, env, out, Array(es), scope);
            && (s == "" ==> r == Success(out))
            && (s != "" && opts.arrayDelimiter == "" ==> r == Success(Append(out, s, Rendered(opts, env, es))))
            && (s != "" && opts.arrayDelimiter != "" && |es| > 0 ==>
                  r == Success(Add(out, s, Join(Rendered(opts, env, es), opts.arrayDelimiter))))
            && (opts.arrayDelimiter != "" && |es| == 0 ==> r == Success(out))
  {
    if opts.arrayDelimiter == "" {
      SliceRepeated(opts, env, out, es, scope);
    } else {
      SliceJoined(opts, env, out, es, scope);
    }
  }

  // ---------------------------------------------------------------------
  // Leaves.

  /** The text a leaf is written as: a time value by `encodeTime`, anything
      else by the basic-value rendering. */
  function LeafText(opts: Options, env: Env, v: Value): string {
    if v.Time? then EncodeTime(opts, env, v.instant) else RenderLeaf(opts, env, v)
  }

  /** A boolean, integer, string or time value emits nothing at the top
      level and exactly one value, its rendering, under any other scope.
      Zero values are no exception: `0`, `""`, `false` and the zero time are
      all written. */
  lemma LeafEmission(opts: Options, env: Env, out: Values, v: Value, scope: string)
    requires IsPrimitive(v) || v.Time?
    ensures Encodable(v)
    ensures var r := MarshalAny(opts, env, out, v, scope);
            && r.Success?
            && (scope == "" ==> r.value == out)
            && (scope != "" ==> r.value.Keys == out.Keys + {scope})
            && (scope != "" ==> Get(r.value, scope) == Get(out, scope) + [LeafText(opts, env, v)])
            && (forall k :: k != scope ==> Get(r.value, k) == Get(out, k))
  {
  }

  // ---------------------------------------------------------------------
  // Scope composition.

  /** A map with one entry whose key renders as `k` encodes its value under
      the child scope of `k`: `k` at the top level and `scope[k]` below it.
      A key of any kind renders by the string rule, so a zero key such as
      `""`, `0` or `false` renders as the empty key, which is no exception:
      under `scope` it lands at `scope[]`. */
  lemma SingleEntryScope(opts: Options, env: Env, out: Values, key: Value, v: Value, scope: string)
    requires Encodable(v) && !v.Iface?
    ensures Encodable(Map([(key, v)]))
    ensures MarshalAny(opts, env, out, Map([(key, v)]), scope)
         == Wrap(InMap, MarshalAny(opts, env, out, v, ScopedKey(scope, ValueString(env.sprint, key))))
  {
    var k := ValueString(env.sprint, key);
    var es := [(key, v)];
    assert Encodable(Map(es)) by {
      assert EntryEncodable(es, 0);
    }
    assert v != Nil;
    assert es[..|es| - 1] == [];
    assert StringValueMap(env.sprint, es[..|es| - 1]) == [];
    var kvs := StringValueMap(env.sprint, es);
    assert kvs == Put([], k, v);
    ViewEncodable(env.sprint, es);
    var bound := Size(Map(es));
    assert MarshalMap(opts, env, out, es, scope) == MarshalEntries(opts, env, out, kvs, scope, bound);
    var step := MarshalAny(opts, env, out, v, ScopedKey(scope, k));
    if step.Success? {
      assert kvs[1..] == [];
      assert MarshalEntries(opts, env, step.value, kvs[1..], scope, bound) == Success(step.value);
    }
    assert MarshalEntries(opts, env, out, kvs, scope, bound) == step;
  }

  /** Scope composition: `{"a": {"b": v}}` encoded at `scope` is `v` encoded
      at `scope[a][b]` (at `a[b]` from the top level); only an error gains
      the two map contexts it passed through. An empty outer key at the top
      level is the exception: there `v` lands at plain `b`. */
  lemma NestedMapsCompose(opts: Options, env: Env, out: Values, a: string, b: string, v: Value, scope: string)
    requires Encodable(v) && !v.Iface?
    ensures Encodable(Map([(Str(a), Map([(Str(b), v)]))]))
    ensures var inner := ScopedKey(ScopedKey(scope, a), b);
            && (scope != "" || a != "" ==> inner == (if scope == "" then a else scope + "[" + a + "]") + "[" + b + "]")
            && (scope == "" && a == "" ==> inner == b)
            && MarshalAny(opts, env, out, Map([(Str(a), Map([(Str(b), v)]))]), scope)
               == Wrap(InMap, Wrap(InMap, MarshalAny(opts, env, out, v, inner)))
  {
    SingleEntryScope(opts, env, out, Str(b), v, ScopedKey(scope, a));
    SingleEntryScope(opts, env, out, Str(a), Map([(Str(b), v)]), scope);
  }

  /** `marshalPtr`: a non-nil pointer that is not a `Marshaler` is encoded
      as the value at the end of its pointer chain, under the same scope;
      only an error gains the pointer context. A pointer is a `Marshaler`
      exactly when it points to a `Marshaler` with a value receiver, and is
      then encoded as the value it points to. A pointer to a
      pointer-receiver `Marshaler` is not one: the chain is followed through
      it to the plain value below. */
  lemma PointerEncodesTarget(opts: Options, env: Env, out: Values, x: Value, scope: string)
    requires Encodable(Ptr(Some(x)))
    ensures Encodable(x) && Encodable(Indirect(x))
    ensures MarshalerOf(Ptr(Some(x))).Some? <==> x.Custom? && KindOf(x.underlying) != PtrKind
    ensures MarshalerOf(Ptr(Some(x))).None? ==>
              MarshalAny(opts, env, out, Ptr(Some(x)), scope) == Wrap(InPointer, MarshalAny(opts, env, out, Indirect(x), scope))
    ensures x.Custom? && KindOf(x.underlying) != PtrKind ==>
              MarshalAny(opts, env, out, Ptr(Some(x)), scope) == MarshalAny(opts, env, out, x, scope)
  {
  }

  // ---------------------------------------------------------------------
  // Maps of leaves.

  /** A map value the view leaves out (a nil interface) or a leaf. */
  predicate LeafOrNil(v: Value) {
    v == Nil || IsPrimitive(v)
  }

  /** What a map of leaves adds under the child scope of a view key: the
      rendering of the value the view keeps for it, if any. */
  function LeafAt(opts: Options, env: Env, found: Option<Value>): seq<string> {
    match found
    case Some(v) => [RenderLeaf(opts, env, v)]
    case None => []
  }

  /** Reference for encoding the view of a map of leaves: each pair, in
      order, adds its value's rendering at the child scope of its key, and
      nothing where that is the top level. */
  function AddLeaves(opts: Options, env: Env, out: Values, kvs: StringMap, scope: string): Values
    decreases |kvs|
  {
    if |kvs| == 0 then out
    else
      var key := ScopedKey(scope, kvs[0].0);
      var next := if key == "" then out else Add(out, key, RenderLeaf(opts, env, kvs[0].1));
      AddLeaves(opts, env, next, kvs[1..], scope)
  }

  /** The loop of `marshalMap` over a view of leaves is the reference. */
  lemma {:induction false} EntriesOfLeaves(opts: Options, env: Env, out: Values, kvs: StringMap, scope: string, bound: nat)
    requires forall i | 0 <= i < |kvs| :: IsPrimitive(kvs[i].1) && Encodable(kvs[i].1) && Size(kvs[i].1) < bound
    ensures MarshalEntries(opts, env, out, kvs, scope, bound) == Success(AddLeaves(opts, env, out, kvs, scope))
    decreases |kvs|
  {
    if |kvs| > 0 {
      var key := ScopedKey(scope, kvs[0].0);
      var next := if key == "" then out else Add(out, key, RenderLeaf(opts, env, kvs[0].1));
      assert MarshalAny(opts, env, out, kvs[0].1, key) == Success(next);
      EntriesOfLeaves(opts, env, next, kvs[1..], scope, bound);
    }
  }

  lemma {:induction false} LookupAbsent(m: StringMap, k: string)
    requires forall i | 0 <= i < |m| :: m[i].0 != k
    ensures Lookup(m, k) == None
    decreases |m|
  {
    if |m| > 0 {
      LookupAbsent(m[1..], k);
    }
  }

  /** Key by key, the reference adds the rendering of the value a view with
      distinct keys holds for `k` at the child scope of `k`, except at the
      top-level key `""`, and changes nothing outside the child scopes. */
  lemma {:induction false} LeavesAtKeys(opts: Options, env: Env, out: Values, kvs: StringMap, scope: string)
    requires DistinctKeys(kvs)
    ensures forall k :: Get(AddLeaves(opts, env, out, kvs, scope), ScopedKey(scope, k))
                     == Get(out, ScopedKey(scope, k))
                        + (if ScopedKey(scope, k) == "" then [] else LeafAt(opts, env, Lookup(kvs, k)))
    ensures forall d :: Unscope(scope, d).None? ==> Get(AddLeaves(opts, env, out, kvs, scope), d) == Get(out, d)
    decreases |kvs|
  {
    if |kvs| > 0 {
      var (k0, v0) := kvs[0];
      var key := ScopedKey(scope, k0);
      var next := if key == "" then out else Add(out, key, RenderLeaf(opts, env, v0));
      var rest := kvs[1..];
      assert DistinctKeys(rest) by {
        forall i, j | 0 <= i < j < |rest| ensures rest[i].0 != rest[j].0 {
          assert rest[i] == kvs[i + 1] && rest[j] == kvs[j + 1];
        }
      }
      LeavesAtKeys(opts, env, next, rest, scope);
      forall k ensures Get(AddLeaves(opts, env, out, kvs, scope), ScopedKey(scope, k))
                    == Get(out, ScopedKey(scope, k))
                       + (if ScopedKey(scope, k) == "" then [] else LeafAt(opts, env, Lookup(kvs, k)))
      {
        if k == k0 {
          forall i | 0 <= i < |rest| ensures rest[i].0 != k0 {
            assert rest[i] == kvs[i + 1];
          }
          LookupAbsent(rest, k0);
        } else {
          ScopedKeyInjective(scope, k, k0);
        }
      }
      forall d | Unscope(scope, d).None?
        ensures Get(AddLeaves(opts, env, out, kvs, scope), d) == Get(out, d)
      {
        UnscopeIsInverse(scope, d, k0);
      }
    }
  }

  /** A map whose values are leaves (or nil interfaces, which are skipped)
      writes, at the child scope of each rendered key `k`, exactly one
      value: the rendering of the last entry whose key renders as `k`. Keys
      no entry renders as, the top-level key `""`, and every key outside the
      child scopes are left alone. */
  lemma MapOfLeaves(opts: Options, env: Env, out: Values, es: seq<(Value, Value)>, scope: string)
    requires forall i | 0 <= i < |es| :: LeafOrNil(Concrete(es[i].1))
    ensures Encodable(Map(es))
    ensures var r := MarshalAny(opts, env, out, Map(es), scope);
            && r.Success?
            && (forall k :: Get(r.value, ScopedKey(scope, k))
                         == Get(out, ScopedKey(scope, k))
                            + (if ScopedKey(scope, k) == "" then [] else LeafAt(opts, env, LastWithKey(env.sprint, es, k))))
            && (forall d :: Unscope(scope, d).None? ==> Get(r.value, d) == Get(out, d))
  {
    assert Encodable(Map(es)) by {
      forall i | 0 <= i < |es| ensures EntryEncodable(es, i) {
        EntryIsSmaller(es, i);
      }
    }
    var kvs := StringValueMap(env.sprint, es);
    var bound := Size(Map(es));
    ViewEncodable(env.sprint, es);
    forall i | 0 <= i < |kvs| ensures IsPrimitive(kvs[i].1) {
      StringValueMapFromEntries(env.sprint, es, i);
    }
    EntriesOfLeaves(opts, env, out, kvs, scope, bound);
    LeavesAtKeys(opts, env, out, kvs, scope);
  }

  /** `marshalPtr` composed with `marshalMap`: a pointer chain that is not a
      `Marshaler` and ends in a map of leaves writes, under the same scope,
      exactly what the map itself writes: at each child scope the rendering
      of the last entry whose key renders that way, and nothing outside the
      child scopes. */
  lemma PointerToMapOfLeaves(opts: Options, env: Env, out: Values, x: Value, es: seq<(Value, Value)>, scope: string)
    requires MarshalerOf(Ptr(Some(x))).None? && Indirect(x) == Map(es)
    requires forall i | 0 <= i < |es| :: LeafOrNil(Concrete(es[i].1))
    ensures Encodable(Ptr(Some(x)))
    ensures var r := MarshalAny(opts, env, out, Ptr(Some(x)), scope);
            && r.Success?
            && (forall k :: Get(r.value, ScopedKey(scope, k))
                         == Get(out, ScopedKey(scope, k))
                            + (if ScopedKey(scope, k) == "" then [] else LeafAt(opts, env, LastWithKey(env.sprint, es, k))))
            && (forall d :: Unscope(scope, d).None? ==> Get(r.value, d) == Get(out, d))
  {
    MapOfLeaves(opts, env, out, es, scope);
    assert Indirect(Ptr(Some(x))) == Map(es);
    assert Encodable(Ptr(Some(x)));
    PointerEncodesTarget(opts, env, out, x, scope);
  }

  // ---------------------------------------------------------------------
  // Without `Marshaler` values the encoder only appends, and only below
  // its scope.

  /** `k` lies at or below `scope` in the key-path structure: it is the
      scope itself or continues it with a bracket, as `scope[...]` does.
      Every key lies below the top level. */
  predicate UnderScope(k: string, scope: string) {
    scope == "" || k == scope || (|k| > |scope| && k[..|scope| + 1] == scope + "[")
  }

  /** `r` is `out` with values appended, and only at keys below `scope`. */
  ghost predicate Extends(out: Values, r: Values, scope: string) {
    && (forall k :: Get(out, k) <= Get(r, k))
    && (forall k :: !UnderScope(k, scope) ==> Get(r, k) == Get(out, k))
  }

  /** No `Marshaler` is reached: only those can write outside their scope
      or take values away. */
  ghost predicate NoMarshaler(v: Value)
    decreases Size(v), 1
  {
    && MarshalerOf(v).None?
    && match v
    case Ptr(_) => !IsNilPointer(v) ==> NoMarshaler(Indirect(v))
    case Map(es) => forall i | 0 <= i < |es| :: EntryNoMarshaler(es, i)
    case Array(es) => forall i | 0 <= i < |es| :: ElemNoMarshaler(es, i)
    case _ => true
  }

  ghost predicate EntryNoMarshaler(es: seq<(Value, Value)>, i: nat)
    requires i < |es|
    decreases EntriesSize(es) + 1, 0
  {
    EntryIsSmaller(es, i);
    NoMarshaler(Concrete(es[i].1))
  }

  ghost predicate ElemNoMarshaler(es: seq<Value>, i: nat)
    requires i < |es|
    decreases ElemsSize(es) + 1, 0
  {
    ElemIsSmaller(es, i);
    NoMarshaler(es[i])
  }

  lemma ExtendsTrans(a: Values, b: Values, c: Values, scope: string)
    requires Extends(a, b, scope) && Extends(b, c, scope)
    ensures Extends(a, c, scope)
  {
    forall k ensures Get(a, k) <= Get(c, k) {
      assert Get(a, k) <= Get(b, k) && Get(b, k) <= Get(c, k);
    }
  }

  /** A key at or below a scope that is itself below `outer` is below
      `outer`. */
  lemma UnderScopeTrans(k: string, inner: string, outer: string)
    requires UnderScope(k, inner) && UnderScope(inner, outer) && (outer != "" ==> inner != "")
    ensures UnderScope(k, outer)
  {
    if outer != "" && k != inner && inner != outer {
      assert k[..|inner| + 1][..|outer| + 1] == k[..|outer| + 1];
      assert k[..|inner| + 1][..|inner|] == inner;
      assert inner[..|outer| + 1] == k[..|outer| + 1];
    }
  }

  lemma ExtendsWiden(out: Values, r: Values, inner: string, outer: string)
    requires Extends(out, r, inner) && UnderScope(inner, outer) && (outer != "" ==> inner != "")
    ensures Extends(out, r, outer)
  {
    forall k | !UnderScope(k, outer) ensures Get(r, k) == Get(out, k) {
      if UnderScope(k, inner) {
        UnderScopeTrans(k, inner, outer);
      }
    }
  }

  lemma ScopedKeyUnder(scope: string, k: string)
    ensures UnderScope(ScopedKey(scope, k), scope)
    ensures scope != "" ==> ScopedKey(scope, k) != ""
  {
    if scope != "" {
      assert ScopedKey(scope, k)[..|scope| + 1] == scope + "[";
    }
  }

  lemma MergeExtends(out: Values, fields: Values, scope: string)
    ensures Extends(out, Merge(out, fields, scope), scope)
  {
    var r := Merge(out, fields, scope);
    forall d ensures Get(out, d) <= Get(r, d) && (!UnderScope(d, scope) ==> Get(r, d) == Get(out, d)) {
      if d in ScopedKeys(fields, scope) {
        var k :| k in fields && fields[k] != [] && d == ScopedKey(scope, k);
        ScopedKeyUnder(scope, k);
      }
    }
  }

  /** A value without `Marshaler`s, encoded under `scope`, only appends
      values, and only at keys below `scope`: what was there before is kept,
      and keys outside the scope are untouched. */
  lemma {:induction false} AnyStaysInScope(opts: Options, env: Env, out: Values, v: Value, scope: string)
    requires Encodable(v) && NoMarshaler(v)
    ensures var r := MarshalAny(opts, env, out, v, scope);
            r.Success? ==> Extends(out, r.value, scope)
    decreases Size(v), 2, 0
  {
    match v
    case Map(es) =>
      MapStaysInScope(opts, env, out, es, scope);
    case Array(es) =>
      SliceStaysInScope(opts, env, out, es, scope);
    case Record(_, _) =>
      var fields := env.structValues(v.id);
      if fields.Success? {
        MergeExtends(out, fields.value, scope);
      }
    case Time(_, _) =>
    case Ptr(_) =>
      AnyStaysInScope(opts, env, out, Indirect(v), scope);
    case _ =>
  }

  /** The map rule under `scope`: every entry is encoded below its child
      scope, which lies below `scope`. */
  lemma {:induction false} MapStaysInScope(opts: Options, env: Env, out: Values, es: seq<(Value, Value)>, scope: string)
    requires Encodable(Map(es)) && NoMarshaler(Map(es))
    ensures var r := MarshalMap(opts, env, out, es, scope);
            r.Success? ==> Extends(out, r.value, scope)
    decreases Size(Map(es)), 1, 0
  {
    ViewEncodable(env.sprint, es);
    ViewNoMarshaler(env.sprint, es);
    EntriesStayInScope(opts, env, out, StringValueMap(env.sprint, es), scope, Size(Map(es)));
  }

  /** The array rule under `scope`: the element scope lies below `scope`,
      and a delimited slice adds at most one value there. */
  lemma {:induction false} SliceStaysInScope(opts: Options, env: Env, out: Values, es: seq<Value>, scope: string)
    requires Encodable(Array(es)) && NoMarshaler(Array(es))
    ensures var r := MarshalSlice(opts, env, out, es, scope);
            r.Success? ==> Extends(out, r.value, scope)
    decreases Size(Array(es)), 1, 0
  {
    ArrayEncodable(es);
    forall i | 0 <= i < |es| ensures NoMarshaler(es[i]) {
      assert ElemNoMarshaler(es, i);
    }
    var s := ElemScope(opts, scope);
    assert UnderScope(s, scope) && (scope != "" ==> s != "") by {
      if opts.arrayBrackets && scope != "" {
        assert s[..|scope| + 1] == scope + "[";
      }
    }
    if opts.arrayDelimiter == "" {
      ElemsStayInScope(opts, env, out, es, s);
      var r := MarshalElems(opts, env, out, es, s);
      if r.Success? {
        ExtendsWiden(out, r.value, s, scope);
      }
    }
  }

  lemma ViewNoMarshaler(sprint: Value -> string, es: seq<(Value, Value)>)
    requires NoMarshaler(Map(es))
    ensures forall i | 0 <= i < |StringValueMap(sprint, es)| :: NoMarshaler(StringValueMap(sprint, es)[i].1)
  {
    var kvs := StringValueMap(sprint, es);
    forall i | 0 <= i < |kvs| ensures NoMarshaler(kvs[i].1) {
      StringValueMapFromEntries(sprint, es, i);
      var j :| 0 <= j < |es| && Concrete(es[j].1) == kvs[i].1;
      assert EntryNoMarshaler(es, j);
    }
  }

  lemma {:induction false} EntriesStayInScope(opts: Options, env: Env, out: Values, kvs: StringMap, scope: string, bound: nat)
    requires forall i | 0 <= i < |kvs| :: Encodable(kvs[i].1) && Size(kvs[i].1) < bound
    requires forall i | 0 <= i < |kvs| :: NoMarshaler(kvs[i].1)
    ensures var r := MarshalEntries(opts, env, out, kvs, scope, bound);
            r.Success? ==> Extends(out, r.value, scope)
    decreases bound, 0, |kvs|
  {
    if |kvs| > 0 {
      var (k, v) := kvs[0];
      var child := ScopedKey(scope, k);
      var step := MarshalAny(opts, env, out, v, child);
      if step.Success? {
        AnyStaysInScope(opts, env, out, v, child);
        ScopedKeyUnder(scope, k);
        ExtendsWiden(out, step.value, child, scope);
        EntriesStayInScope(opts, env, step.value, kvs[1..], scope, bound);
        var r := MarshalEntries(opts, env, step.value, kvs[1..], scope, bound);
        if r.Success? {
          ExtendsTrans(out, step.value, r.value, scope);
        }
      }
    }
  }

  lemma {:induction false} ElemsStayInScope(opts: Options, env: Env, out: Values, es: seq<Value>, scope: string)
    requires forall i | 0 <= i < |es| :: Encodable(es[i]) && NoMarshaler(es[i])
    ensures var r := MarshalElems(opts, env, out, es, scope);
            r.Success? ==> Extends(out, r.value, scope)
    decreases ElemsSize(es) + 1, 0, |es|
  {
    if |es| > 0 {
      ElemIsSmaller(es, 0);
      var step := MarshalAny(opts, env, out, es[0], scope);
      if step.Success? {
        AnyStaysInScope(opts, env, out, es[0], scope);
        ElemsStayInScope(opts, env, step.value, es[1..], scope);
        var r := MarshalElems(opts, env, step.value, es[1..], scope);
        if r.Success? {
          ExtendsTrans(out, step.value, r.value, scope);
        }
      }
    }
  }
}

=== FILE: reflect.dfy ===
/** The dynamically typed values the encoder walks, and the normalising
    helpers of `internal/reflect.go`: `Indirect`, `IsZero`, `ValueString`,
    `StringValueMap` and `SliceValues`. */
module Reflect {
  import opened Wrappers

  /** The reflect kinds the core tells apart. Every integer and unsigned kind
      is `IntKind`; arrays and slices are both `SliceKind`. */
  datatype Kind =
    | InvalidKind
    | BoolKind
    | IntKind
    | StringKind
    | MapKind
    | SliceKind
    | StructKind
    | PtrKind
    | InterfaceKind

  /** A Go value as seen through reflection.
      - `Nil` is the invalid value: what a nil interface turns into.
      - `Map` lists its entries in the order a range over the map visits them.
      - `Array` stands for arrays and slices alike.
      - `Record` is a struct other than `time.Time`; its fields are encoded by
        a collaborator, so only an identity is kept, together with the answer
        of its `IsZero() bool` method when it has one.
      - `Time` is a `time.Time`; `zero` is what its `IsZero` method answers.
      - `Ptr(None)` is a nil pointer.
      - `Iface` is a value of interface kind, as produced by indexing a
        `[]any` or dereferencing an `*any`; `None` is a nil interface.
      - `Custom` is a value whose type implements `Marshaler`; `underlying`
        is its shape, which decides its kind and zero-ness. */
  datatype Value =
    | Nil
    | Bool(b: bool)
    | Int(i: int)
    | Str(s: string)
    | Map(entries: seq<(Value, Value)>)
    | Array(elems: seq<Value>)
    | Record(id: nat, selfZero: Option<bool>)
    | Time(instant: int, zero: bool)
    | Ptr(target: Option<Value>)
    | Iface(held: Option<Value>)
    | Custom(id: nat, underlying: Value)

  function KindOf(v: Value): Kind {
    match v
    case Nil => InvalidKind
    case Bool(_) => BoolKind
    case Int(_) => IntKind
    case Str(_) => StringKind
    case Map(_) => MapKind
    case Array(_) => SliceKind
    case Record(_, _) => StructKind
    case Time(_, _) => StructKind
    case Ptr(_) => PtrKind
    case Iface(_) => InterfaceKind
    case Custom(_, u) => KindOf(u)
  }

  /** A structural size, used only to show that the encoder terminates. */
  ghost function Size(v: Value): nat {
    match v
    case Map(es) => 1 + EntriesSize(es)
    case Array(es) => 1 + ElemsSize(es)
    case Ptr(Some(x)) => 1 + Size(x)
    case Iface(Some(x)) => 1 + Size(x)
    case Custom(_, u) => 1 + Size(u)
    case _ => 1
  }

  ghost function EntriesSize(es: seq<(Value, Value)>): nat {
    if |es| == 0 then 0 else EntrySize(es[0]) + EntriesSize(es[1..])
  }

  ghost function EntrySize(e: (Value, Value)): nat {
    Size(e.1)
  }

  ghost function ElemsSize(es: seq<Value>): nat {
    if |es| == 0 then 0 else Size(es[0]) + ElemsSize(es[1..])
  }

  lemma {:induction false} EntryIsSmaller(es: seq<(Value, Value)>, j: nat)
    requires j < |es|
    ensures Size(es[j].1) <= EntriesSize(es)
  {
    if j > 0 {
      EntryIsSmaller(es[1..], j - 1);
    }
  }

  lemma {:induction false} ElemIsSmaller(es: seq<Value>, j: nat)
    requires j < |es|
    ensures Size(es[j]) <= ElemsSize(es)
  {
    if j > 0 {
      ElemIsSmaller(es[1..], j - 1);
    }
  }

  /** A nil value of pointer kind, seen through named pointer types. */
  predicate IsNilPointer(v: Value) {
    match v
    case Ptr(t) => t.None?
    case Custom(_, u) => IsNilPointer(u)
    case _ => false
  }

  /** `Elem` of a non-nil pointer: the value it points to. */
  function Elem(v: Value): (r: Value)
    requires KindOf(v) == PtrKind && !IsNilPointer(v)
    ensures Size(r) < Size(v)
  {
    match v
    case Ptr(Some(x)) => x
    case Custom(_, u) => Elem(u)
  }

  /** Follows pointers until a value that is not a pointer, or a nil pointer,
      is reached. A nil pointer is returned as it is and never followed. */
  function Indirect(v: Value): (r: Value)
    ensures KindOf(r) != PtrKind || IsNilPointer(r)
    ensures Size(r) <= Size(v)
    ensures KindOf(v) != PtrKind || IsNilPointer(v) ==> r == v
    ensures KindOf(v) == PtrKind && !IsNilPointer(v) ==> Size(r) < Size(v)
    ensures v.Ptr? && v.target.Some? ==> r == Indirect(v.target.value)
    decreases Size(v)
  {
    if KindOf(v) == PtrKind && !IsNilPointer(v) then Indirect(Elem(v)) else v
  }

  /** Indirection has nothing left to do on its own result. */
  lemma IndirectIdempotent(v: Value)
    ensures Indirect(Indirect(v)) == Indirect(v)
  {
  }

  /** Zero-ness by kind: empty containers and strings, `false`, `0`, nil
      pointers and interfaces, invalid values, and records whose own
      `IsZero` method says so. */
  predicate IsZero(v: Value) {
    match v
    case Nil => true
    case Bool(b) => !b
    case Int(i) => i == 0
    case Str(s) => |s| == 0
    case Map(es) => |es| == 0
    case Array(es) => |es| == 0
    case Record(_, selfZero) => selfZero == Some(true)
    case Time(_, zero) => zero
    case Ptr(t) => t.None?
    case Iface(t) => t.None?
    case Custom(_, u) => IsZero(u)
  }

  /** `Len` of a map, array, slice or string. */
  function Len(v: Value): nat
    requires KindOf(v) in {MapKind, SliceKind, StringKind}
  {
    if v.Str? then |v.s|
    else if v.Map? then |v.entries|
    else if v.Array? then |v.elems|
    else Len(v.underlying)
  }

  /** `Bool` of a value of boolean kind. */
  function Truth(v: Value): bool
    requires KindOf(v) == BoolKind
  {
    if v.Bool? then v.b else Truth(v.underlying)
  }

  /** `Int` of a value of integer kind. */
  function IntOf(v: Value): int
    requires KindOf(v) == IntKind
  {
    if v.Int? then v.i else IntOf(v.underlying)
  }

  /** `IsNil` of a pointer or interface. */
  function IsNil(v: Value): bool
    requires KindOf(v) in {PtrKind, InterfaceKind}
  {
    if v.Ptr? then v.target.None?
    else if v.Iface? then v.held.None?
    else IsNil(v.underlying)
  }

  /** The answer of the `IsZero() bool` method of a value of struct kind,
      or `None` when its type has no such method. `time.Time` has one. */
  function ZeroMethod(v: Value): Option<bool>
    requires KindOf(v) == StructKind
  {
    if v.Record? then v.selfZero
    else if v.Time? then Some(v.zero)
    else ZeroMethod(v.underlying)
  }

  /** `IsZero` read kind by kind, through the reflect accessors: containers
      and strings are zero exactly when empty, booleans when false, integers
      when `0`, pointers and interfaces when nil, and the invalid value
      always. A struct is zero exactly when its own `IsZero` method says so,
      and is never zero without one. A named type is zero exactly when its
      underlying value is. */
  lemma {:induction false} IsZeroByKind(v: Value)
    ensures KindOf(v) in {MapKind, SliceKind, StringKind} ==> (IsZero(v) <==> Len(v) == 0)
    ensures KindOf(v) == BoolKind ==> (IsZero(v) <==> !Truth(v))
    ensures KindOf(v) == IntKind ==> (IsZero(v) <==> IntOf(v) == 0)
    ensures KindOf(v) in {PtrKind, InterfaceKind} ==> (IsZero(v) <==> IsNil(v))
    ensures KindOf(v) == InvalidKind ==> IsZero(v)
    ensures KindOf(v) == StructKind ==> (IsZero(v) <==> ZeroMethod(v) == Some(true))
  {
    if v.Custom? {
      IsZeroByKind(v.underlying);
    }
  }

  function DigitChar(d: nat): char
    requires d < 10
  {
    "0123456789"[d]
  }

  /** The decimal digits of `n`, most significant first. */
  function Digits(n: nat): (r: string)
    ensures |r| > 0
  {
    if n < 10 then [DigitChar(n)] else Digits(n / 10) + [DigitChar(n % 10)]
  }

  /** `fmt.Sprint` of an integer: its decimal form, with a minus sign when
      negative. */
  function DecimalText(n: int): (r: string)
    ensures |r| > 0
  {
    if n < 0 then "-" + Digits(-n) else Digits(n)
  }

  /** `fmt.Sprint` of a value. Booleans, integers and strings print as Go
      prints them; an interface prints what it holds; every other value is
      printed by `sprint`. */
  function Print(sprint: Value -> string, v: Value): string {
    match v
    case Bool(b) => if b then "true" else "false"
    case Int(i) => DecimalText(i)
    case Str(s) => s
    case Iface(Some(x)) => Print(sprint, x)
    case _ => sprint(v)
  }

  /** The string rule: a zero value renders as the empty string, anything
      else as it prints. */
  function ValueString(sprint: Value -> string, v: Value): string {
    if IsZero(v) then "" else Print(sprint, v)
  }

  /** Booleans, integers and strings: the values whose printed form the
      model defines. */
  predicate IsPrimitive(v: Value) {
    v.Bool? || v.Int? || v.Str?
  }

  /** Every zero value renders as the empty string. For primitives the
      string rule loses exactly the zero values: `0`, `false` and `""` render
      as `""`, and no other boolean, integer or string does. */
  lemma ValueStringEmptyIffZero(sprint: Value -> string, v: Value)
    ensures IsZero(v) ==> ValueString(sprint, v) == ""
    ensures IsPrimitive(v) ==> (ValueString(sprint, v) == "" <==> IsZero(v))
  {
  }

  // ---------------------------------------------------------------------
  // StringValueMap: a string-keyed view of a map.

  /** An association list from rendered key to value, in insertion order;
      it plays the part of the Go map `StringValueMap` builds. */
  type StringMap = seq<(string, Value)>

  predicate DistinctKeys(m: StringMap) {
    forall i, j :: 0 <= i < j < |m| ==> m[i].0 != m[j].0
  }

  function Lookup(m: StringMap, k: string): Option<Value> {
    if |m| == 0 then None
    else if m[0].0 == k then Some(m[0].1)
    else Lookup(m[1..], k)
  }

  /** Map assignment `m[k] = v`: replaces the value of an existing key in
      place, or appends a new key. */
  function Put(m: StringMap, k: string, v: Value): (r: StringMap)
    requires DistinctKeys(m)
    ensures DistinctKeys(r)
    ensures Lookup(r, k) == Some(v)
    ensures forall k' :: k' != k ==> Lookup(r, k') == Lookup(m, k')
    ensures forall i :: 0 <= i < |r| ==> r[i] == (k, v) || r[i] in m
  {
    if |m| == 0 then [(k, v)]
    else if m[0].0 == k then
      assert forall k' :: k' != k ==> Lookup(m, k') == Lookup(m[1..], k');
      [(k, v)] + m[1..]
    else
      var rest := Put(m[1..], k, v);
      assert forall i :: 0 <= i < |rest| ==> rest[i].0 != m[0].0 by {
        forall i | 0 <= i < |rest| ensures rest[i].0 != m[0].0 {
          if rest[i] != (k, v) {
            var j :| 0 <= j < |m[1..]| && m[1..][j] == rest[i];
            assert m[j + 1] == rest[i];
          }
        }
      }
      [m[0]] + rest
  }

  /** `reflect.ValueOf(v.Interface())`: a value of interface kind becomes
      the value it holds, a nil interface the invalid value; any other value
      is already concrete and stays as it is. */
  function Concrete(v: Value): (r: Value)
    ensures !v.Iface? ==> r == v
    ensures v == Iface(None) ==> r == Nil
    ensures v.Iface? && v.held.Some? ==> r == v.held.value
    ensures Size(r) <= Size(v)
  {
    match v
    case Iface(None) => Nil
    case Iface(Some(x)) => x
    case _ => v
  }

  /** Reference definition: the value `StringValueMap` keeps for the rendered
      key `k` is that of the last entry, in iteration order, whose key renders
      as `k` and whose value is not a nil interface. */
  function LastWithKey(sprint: Value -> string, es: seq<(Value, Value)>, k: string): Option<Value> {
    if |es| == 0 then None
    else
      var (key, val) := es[|es| - 1];
      if Concrete(val) != Nil && ValueString(sprint, key) == k then Some(Concrete(val))
      else LastWithKey(sprint, es[..|es| - 1], k)
  }

  lemma {:induction false} LastWithKeyIsEntry(sprint: Value -> string, es: seq<(Value, Value)>, k: string)
    requires LastWithKey(sprint, es, k).Some?
    ensures exists j :: 0 <= j < |es| && Concrete(es[j].1) == LastWithKey(sprint, es, k).value
                       && Concrete(es[j].1) != Nil && ValueString(sprint, es[j].0) == k
  {
    var (key, val) := es[|es| - 1];
    if !(Concrete(val) != Nil && ValueString(sprint, key) == k) {
      var init := es[..|es| - 1];
      LastWithKeyIsEntry(sprint, init, k);
      var j :| 0 <= j < |init| && Concrete(init[j].1) == LastWithKey(sprint, init, k).value
               && Concrete(init[j].1) != Nil && ValueString(sprint, init[j].0) == k;
      assert es[j] == init[j];
    }
  }

  lemma LookupFound(m: StringMap, i: nat)
    requires DistinctKeys(m) && i < |m|
    ensures Lookup(m, m[i].0) == Some(m[i].1)
  {
    if i > 0 {
      LookupFound(m[1..], i - 1);
    }
  }

  /** `StringValueMap` as written: visits the entries in order, skips those
      whose value is a nil interface, and assigns each remaining value under
      its rendered key, a later entry overwriting an earlier one. */
  function StringValueMap(sprint: Value -> string, es: seq<(Value, Value)>): (r: StringMap)
    ensures DistinctKeys(r)
    ensures forall k :: Lookup(r, k) == LastWithKey(sprint, es, k)
    decreases |es|
  {
    if |es| == 0 then []
    else
      var acc := StringValueMap(sprint, es[..|es| - 1]);
      var (key, val) := es[|es| - 1];
      var mv := Concrete(val);
      if mv == Nil then acc else Put(acc, ValueString(sprint, key), mv)
  }

  /** Every value of the view comes from an entry of the map whose key
      renders as the view's key, and none is a nil interface. */
  lemma StringValueMapFromEntries(sprint: Value -> string, es: seq<(Value, Value)>, i: nat)
    requires i < |StringValueMap(sprint, es)|
    ensures var r := StringValueMap(sprint, es);
            exists j :: 0 <= j < |es| && Concrete(es[j].1) == r[i].1 && r[i].1 != Nil
                        && ValueString(sprint, es[j].0) == r[i].0
  {
    var r := StringValueMap(sprint, es);
    LookupFound(r, i);
    LastWithKeyIsEntry(sprint, es, r[i].0);
  }

  /** A value of the view is smaller than the map it was taken from. */
  lemma StringValueMapSmaller(sprint: Value -> string, es: seq<(Value, Value)>, i: nat)
    requires i < |StringValueMap(sprint, es)|
    ensures Size(StringValueMap(sprint, es)[i].1) < Size(Map(es))
  {
    StringValueMapFromEntries(sprint, es, i);
    var j :| 0 <= j < |es| && Concrete(es[j].1) == StringValueMap(sprint, es)[i].1;
    EntryIsSmaller(es, j);
  }

  /** `SliceValues`: the elements of an array or slice, appended one index
      at a time. The result is the elements themselves, in index order. */
  function SliceValues(elems: seq<Value>): (r: seq<Value>)
    ensures r == elems
  {
    if |elems| == 0 then [] else SliceValues(elems[..|elems| - 1]) + [elems[|elems| - 1]]
  }
}

=== FILE: url_values.dfy ===
/** The query parameter collection (Go's `url.Values`) and the key-path merge
    utility of `internal/url.go`. */
module UrlValues {
  import opened Wrappers

  /** A key maps to the ordered list of values added under it. Keys that were
      never added are absent; `Get` reads them as the empty list. */
  type Values = map<string, seq<string>>

  function Get(m: Values, k: string): seq<string> {
    if k in m then m[k] else []
  }

  /** `url.Values.Add`: appends one value to the list under `k`. */
  function Add(m: Values, k: string, s: string): (r: Values)
    ensures r.Keys == m.Keys + {k}
    ensures Get(r, k) == Get(m, k) + [s]
    ensures forall k' :: k' != k ==> Get(r, k') == Get(m, k')
  {
    m[k := Get(m, k) + [s]]
  }

  /** Appends every value of `vs`, in order, under `k`; the key appears only
      if at least one value is added. */
  function Append(m: Values, k: string, vs: seq<string>): (r: Values)
    ensures r.Keys == m.Keys + (if vs == [] then {} else {k})
    ensures Get(r, k) == Get(m, k) + vs
    ensures forall k' :: k' != k ==> Get(r, k') == Get(m, k')
  {
    if vs == [] then m else m[k := Get(m, k) + vs]
  }

  /** `strings.Join`: the parts separated by `sep`. */
  function Join(parts: seq<string>, sep: string): string {
    if |parts| == 0 then ""
    else if |parts| == 1 then parts[0]
    else parts[0] + sep + Join(parts[1..], sep)
  }

  /** The key-path rule: key `k` under scope `scope` is `k` at the top level
      and `scope[k]` below it. */
  function ScopedKey(scope: string, k: string): string {
    if scope == "" then k else scope + "[" + k + "]"
  }

  /** Recovers the child key from a scoped key, if `d` is one. */
  function Unscope(scope: string, d: string): Option<string> {
    if scope == "" then Some(d)
    else if |d| >= |scope| + 2 && d[..|scope|] == scope && d[|scope|] == '[' && d[|d| - 1] == ']'
    then Some(d[|scope| + 1..|d| - 1])
    else None
  }

  /** `Unscope` inverts the key-path rule exactly: `d` is the scoped form of
      `k` if and only if unscoping `d` gives back `k`. In particular the rule
      is injective for a fixed scope. */
  lemma UnscopeIsInverse(scope: string, d: string, k: string)
    ensures Unscope(scope, d) == Some(k) <==> d == ScopedKey(scope, k)
  {
    if scope != "" {
      if d == ScopedKey(scope, k) {
        assert d == scope + ("[" + k + "]");
        assert d[..|scope|] == scope;
        assert d[|scope| + 1..|d| - 1] == k;
      }
      if Unscope(scope, d) == Some(k) {
        assert d == d[..|scope|] + [d[|scope|]] + d[|scope| + 1..|d| - 1] + [d[|d| - 1]];
      }
    }
  }

  lemma ScopedKeyInjective(scope: string, k1: string, k2: string)
    ensures ScopedKey(scope, k1) == ScopedKey(scope, k2) ==> k1 == k2
  {
    UnscopeIsInverse(scope, ScopedKey(scope, k1), k1);
    UnscopeIsInverse(scope, ScopedKey(scope, k1), k2);
  }

  /** The destination keys a merge writes to. */
  function ScopedKeys(src: Values, scope: string): set<string> {
    set k | k in src && src[k] != [] :: ScopedKey(scope, k)
  }

  /** The source values a merge appends under destination key `d`. */
  function SourceAt(src: Values, scope: string, d: string): seq<string> {
    match Unscope(scope, d)
    case Some(k) => Get(src, k)
    case None => []
  }

  /** The result of `MergeURLValues(dst, src, scope)`, stated key by key:
      each source key `k` lands on `ScopedKey(scope, k)` with its values
      appended, in order, after what the destination already held there;
      every other destination key is left as it was. */
  function Merge(dst: Values, src: Values, scope: string): (r: Values)
    ensures r.Keys == dst.Keys + ScopedKeys(src, scope)
    ensures forall k :: k in src ==> Get(r, ScopedKey(scope, k)) == Get(dst, ScopedKey(scope, k)) + src[k]
    ensures forall d :: d !in ScopedKeys(src, scope) ==> Get(r, d) == Get(dst, d)
  {
    MergedSpec(dst, src, scope);
    Merged(dst, src, scope)
  }

  /** The merge as one map comprehension: every destination key or scoped
      source key, holding the destination's values and then the source's. */
  function Merged(dst: Values, src: Values, scope: string): Values {
    map d | d in dst.Keys + ScopedKeys(src, scope) :: Get(dst, d) + SourceAt(src, scope, d)
  }

  lemma MergedSpec(dst: Values, src: Values, scope: string)
    ensures Merged(dst, src, scope).Keys == dst.Keys + ScopedKeys(src, scope)
    ensures forall k :: k in src ==> Get(Merged(dst, src, scope), ScopedKey(scope, k)) == Get(dst, ScopedKey(scope, k)) + src[k]
    ensures forall d :: d !in ScopedKeys(src, scope) ==> Get(Merged(dst, src, scope), d) == Get(dst, d)
  {
    var r := Merged(dst, src, scope);
    forall k | k in src
      ensures Get(r, ScopedKey(scope, k)) == Get(dst, ScopedKey(scope, k)) + src[k]
    {
      var key := ScopedKey(scope, k);
      UnscopeIsInverse(scope, key, k);
      assert SourceAt(src, scope, key) == src[k];
      if src[k] != [] {
        assert key in ScopedKeys(src, scope);
      }
    }
    forall d | d !in ScopedKeys(src, scope)
      ensures Get(r, d) == Get(dst, d)
    {
      match Unscope(scope, d)
      case Some(k) =>
        UnscopeIsInverse(scope, d, k);
        assert k !in src || src[k] == [];
      case None =>
    }
  }

  /** The number of values held under all keys together. */
  ghost function Total(m: Values): nat
    decreases |m|
  {
    if |m| == 0 then 0
    else
      var k :| k in m;
      |m[k]| + Total(m - {k})
  }

  /** `Total` does not depend on which key is taken out first. */
  lemma {:induction false} TotalPick(m: Values, k: string)
    requires k in m
    ensures Total(m) == |m[k]| + Total(m - {k})
    decreases |m|, 1
  {
    assert |m| > 0;
    var k' :| k' in m && Total(m) == |m[k']| + Total(m - {k'});
    if k' != k {
      TotalSwap(m, k, k');
    }
  }

  /** Taking out `k'` and then `k` counts the same as the other way round. */
  lemma {:induction false} TotalSwap(m: Values, k: string, k': string)
    requires k in m && k' in m && k != k'
    ensures |m[k']| + Total(m - {k'}) == |m[k]| + Total(m - {k})
    decreases |m|, 0
  {
    var a, b := m - {k'}, m - {k};
    assert |a| == |m| - 1 && |b| == |m| - 1;
    assert k in a && a[k] == m[k];
    assert k' in b && b[k'] == m[k'];
    TotalPick(a, k);
    TotalPick(b, k');
    assert a - {k} == b - {k'};
  }

  /** Appending `vs` under one key adds exactly `|vs|` values in total. */
  lemma TotalAppend(m: Values, k: string, vs: seq<string>)
    ensures Total(Append(m, k, vs)) == Total(m) + |vs|
  {
    if vs == [] {
      return;
    }
    var m' := m[k := Get(m, k) + vs];
    TotalPick(m', k);
    assert m' - {k} == m - {k};
    if k in m {
      TotalPick(m, k);
    } else {
      assert m - {k} == m;
    }
  }

  /** `MergeURLValues` as written: for each source key, every one of its
      values is added in order under the scoped key. Whatever order the keys
      are visited in, the result is `Merge`. */
  method MergeURLValues(dst: Values, src: Values, scope: string) returns (r: Values)
    ensures r == Merge(dst, src, scope)
  {
    r := dst;
    var todo := src.Keys;
    ghost var done: set<string> := {};
    MergeNothing(dst, Restrict(src, done), scope);
    while todo != {}
      invariant todo !! done && todo + done == src.Keys
      invariant r == Merged(dst, Restrict(src, done), scope)
      decreases todo
    {
      var k :| k in todo;
      r := AddAll(r, ScopedKey(scope, k), src[k]);
      MergeLoopStep(dst, src, scope, done, k);
      todo := todo - {k};
      done := done + {k};
    }
    assert Restrict(src, done) == src;
    assert r == Merge(dst, src, scope);
  }

  /** The inner loop of `MergeURLValues`: adds each of `vs`, in order, under
      `key`. */
  method AddAll(m: Values, key: string, vs: seq<string>) returns (r: Values)
    ensures r == Append(m, key, vs)
  {
    r := m;
    var i := 0;
    while i < |vs|
      invariant 0 <= i <= |vs|
      invariant r == Append(m, key, vs[..i])
    {
      assert vs[..i + 1] == vs[..i] + [vs[i]];
      AppendThenAdd(m, key, vs[..i], vs[i]);
      r := Add(r, key, vs[i]);
      i := i + 1;
    }
    assert vs[..i] == vs;
  }

  lemma AppendThenAdd(m: Values, key: string, xs: seq<string>, x: string)
    ensures Add(Append(m, key, xs), key, x) == Append(m, key, xs + [x])
  {
    ValuesExt(Add(Append(m, key, xs), key, x), Append(m, key, xs + [x]));
  }

  /** One round of the outer loop: taking key `k` in appends its values at
      its scoped key. */
  lemma MergeLoopStep(dst: Values, src: Values, scope: string, done: set<string>, k: string)
    requires k in src && k !in done
    ensures Merged(dst, Restrict(src, done + {k}), scope)
         == Append(Merged(dst, Restrict(src, done), scope), ScopedKey(scope, k), src[k])
  {
    var next := Restrict(src, done + {k});
    assert next - {k} == Restrict(src, done);
    MergeRemove(dst, next, scope, k);
  }

  /** Merging an empty source changes nothing. */
  lemma MergeNothing(dst: Values, src: Values, scope: string)
    requires src == map[]
    ensures Merged(dst, src, scope) == dst
  {
    assert ScopedKeys(src, scope) == {};
    ValuesExt(Merge(dst, src, scope), dst);
  }

  function Restrict(src: Values, ks: set<string>): (r: Values)
    ensures r.Keys == src.Keys * ks
    ensures forall k :: k in r ==> r[k] == src[k]
  {
    map k | k in src && k in ks :: src[k]
  }

  /** Two collections that agree on every key are equal. */
  lemma ValuesExt(a: Values, b: Values)
    requires a.Keys == b.Keys
    requires forall d :: Get(a, d) == Get(b, d)
    ensures a == b
  {
    forall d | d in a ensures a[d] == b[d] {
      assert Get(a, d) == Get(b, d);
    }
  }

  lemma ScopedKeysRemove(src: Values, scope: string, k: string)
    requires k in src
    ensures ScopedKeys(src, scope)
         == ScopedKeys(src - {k}, scope) + (if src[k] == [] then {} else {ScopedKey(scope, k)})
  {
  }

  /** Taking one key out of the source takes its values away at its scoped
      key only. */
  lemma SourceAtRemove(src: Values, scope: string, k: string, d: string)
    requires k in src
    ensures SourceAt(src, scope, d)
         == SourceAt(src - {k}, scope, d) + (if d == ScopedKey(scope, k) then src[k] else [])
  {
    match Unscope(scope, d)
    case Some(k') =>
      UnscopeIsInverse(scope, d, k');
      UnscopeIsInverse(scope, d, k);
    case None =>
      UnscopeIsInverse(scope, d, k);
  }

  /** A merge adds exactly as many values to the destination as the source
      holds. */
  lemma {:induction false} MergeTotal(dst: Values, src: Values, scope: string)
    ensures Total(Merge(dst, src, scope)) == Total(dst) + Total(src)
    decreases |src|
  {
    if |src| == 0 {
      assert src == map[];
      assert ScopedKeys(src, scope) == {};
      ValuesExt(Merge(dst, src, scope), dst);
    } else {
      var k :| k in src;
      var rest := src - {k};
      assert |rest| == |src| - 1;
      MergeTotal(dst, rest, scope);
      MergeRemove(dst, src, scope, k);
      TotalAppend(Merge(dst, rest, scope), ScopedKey(scope, k), src[k]);
      TotalPick(src, k);
    }
  }

  /** Taking one key out of the source takes its values out of the merge. */
  lemma MergeRemove(dst: Values, src: Values, scope: string, k: string)
    requires k in src
    ensures Merge(dst, src, scope) == Append(Merge(dst, src - {k}, scope), ScopedKey(scope, k), src[k])
  {
    var key := ScopedKey(scope, k);
    var merged := Merged(dst, src, scope);
    var after := Append(Merged(dst, src - {k}, scope), key, src[k]);
    ScopedKeysRemove(src, scope, k);
    forall d ensures Get(merged, d) == Get(after, d) {
      MergeRemoveAt(dst, src, scope, k, d);
    }
    ValuesExt(merged, after);
  }

  lemma MergeRemoveAt(dst: Values, src: Values, scope: string, k: string, d: string)
    requires k in src
    ensures Get(Merge(dst, src, scope), d)
         == Get(Append(Merge(dst, src - {k}, scope), ScopedKey(scope, k), src[k]), d)
  {
    var extra := if d == ScopedKey(scope, k) then src[k] else [];
    MergedGet(dst, src, scope, d);
    MergedGet(dst, src - {k}, scope, d);
    SourceAtRemove(src, scope, k, d);
    assert Get(dst, d) + SourceAt(src - {k}, scope, d) + extra
        == Get(dst, d) + (SourceAt(src - {k}, scope, d) + extra);
  }

  /** At the top level a merge copies the source keys as they are: under
      every key the source's values follow the destination's, and a source
      key is added only when it holds values. */
  lemma MergeAtTopLevel(dst: Values, src: Values)
    ensures Merge(dst, src, "").Keys == dst.Keys + (set k | k in src && src[k] != [])
    ensures forall k :: Get(Merge(dst, src, ""), k) == Get(dst, k) + Get(src, k)
  {
    assert ScopedKeys(src, "") == (set k | k in src && src[k] != []);
    forall k ensures Get(Merge(dst, src, ""), k) == Get(dst, k) + Get(src, k) {
      MergedGet(dst, src, "", k);
    }
  }

  /** Reading the merge at any key gives the destination's values there
      followed by the source values that key stands for. */
  lemma MergedGet(dst: Values, src: Values, scope: string, d: string)
    ensures Get(Merge(dst, src, scope), d) == Get(dst, d) + SourceAt(src, scope, d)
  {
    if d !in dst && d !in ScopedKeys(src, scope) {
      match Unscope(scope, d)
      case Some(k) =>
        UnscopeIsInverse(scope, d, k);
        assert k !in src || src[k] == [];
      case None =>
    }
  }
}

=== FILE: wrappers.dfy ===
/** Failure-compatible wrappers shared by the model: an optional value and a
    success-or-error result, both usable with `:-`. */
module Wrappers {

  /** Absent or present value; `None` stands for Go's `nil` where the source
      distinguishes it from an empty value. */
  datatype Option<+T> = None | Some(value: T)

  /** Outcome of an operation that can fail with an error of type `E`. */
  datatype Result<+T, +E> = Success(value: T) | Failure(error: E) {

    predicate IsFailure() {
      Failure?
    }

    function PropagateFailure<U>(): Result<U, E>
      requires Failure?
    {
      Failure(error)
    }

    function Extract(): T
      requires Success?
    {
      value
    }
  }
}
